=== FILE: README.md ===
# Intergalactic Space Travel Agency — travel card store

A Dafny model of the client-side record store behind the travel agency pages, and of
the rules the pages layer on top of it. The store has two parts. The durable list of
saved travel cards lives under the localStorage key `intergalactic_travel_cards`. A
single staged ("current") card lives under the sessionStorage key
`current_travel_card`. The form autosave snapshot is kept separately under
`autosave_travel_card`.

Modules, following the program's files:

- `Cards` (cards.dfy): a card is an open map from property names to JSON values. A
  missing property is `undefined` (None). It also defines JavaScript truthiness and
  the shallow merge `{ ...c, ...patch }`.
- `Storage` (storage.dfy, js/storage.js): the three storage keys as one `Medium`.
  Each slot is missing, unparseable, or holds a parsed value. Every storage function
  is a pure function on the medium.
- `TravelCard` (travel_card.dfy, js/travel-card.js) covers the form page:
  - collecting the form into a card;
  - `validateTravelCardForm`;
  - the submit handler;
  - autosave, restore on load, and reset.
- `ReviewCard` (review_card.dfy, js/review-card.js) covers the review page:
  - the check-then-insert save button;
  - the begin-flight button;
  - the `beforeunload` warning;
  - the card view with its defaults.
- `MyCards` (my_cards.dfy, js/my-cards.js) covers the saved-cards page:
  - the search filter;
  - the newest-first order;
  - opening a card into the staging slot;
  - the delete dialog.
- `Utils` (utils.dfy, js/main.js) holds the shared helpers:
  - `destinationData`;
  - `generateCardID`;
  - `formatDateTime`'s guard;
  - `calculateDistance`;
  - `validateForm`.
- `Text` (text.dfy) models the string built-ins the pages call: `trim`, `toLowerCase`,
  `includes`, number printing in template literals, and `parseInt`. `Seqs` and
  `Wrappers` are small generic helpers.

Some inputs are not modelled inside the code; they become parameters instead:

- The clock, `Math.random` and the user's answer to `confirm()`.
- The instant a departure date and time denote, where None stands for an invalid date.
- The locale rendering of a departure.

JSON text is modelled at the value level, so `JSON.stringify` followed by
`JSON.parse` is the identity. A `JSON.parse` that throws is an `Unparseable` slot,
or None for the import text. Thrown `TypeError`s are explicit outcomes: None, or
`NotesFault`. They arise from calling a string method on a non-string property,
and from `push`/`filter`/`find` on a payload that is not an array.

In these places the model follows what the code does, which is narrower or looser than
what a reader of the interface might expect:

- `validateTravelCardForm` only tests each required field for truthiness. It does not
  trim, and it measures the name length untrimmed. The collected name is already
  trimmed, but the other fields are not.
- The departure check rejects only an instant strictly earlier than now. An invalid
  date (NaN) passes the check.
- The generic `validateForm` in js/main.js is the validator that trims. It does not
  check `destinationType`.
- The store's uniqueness of ids under check-then-insert holds only for staged cards
  that carry a truthy id. `saveCard` generates an id for a card without one, so a
  second click would not find it again.

## Model

| member | source | states |
|---|---|---|
| Cards.Merge | js/storage.js:111 | the merged card has the union of the keys; a patched key reads the patch's value, every other key reads the old card's value |
| Storage.GetAllCards | js/storage.js:15-23 | an absent or unparseable payload reads as the empty list; a parsed payload is returned as it is; reading never fails |
| Storage.FindIndex | js/storage.js:108 | the index found is the first card with that id; none is found exactly when no card has the id |
| Storage.GetCardByID | js/storage.js:58-66 | the result is the first stored card, in store order, whose id is strictly equal to the argument; null exactly when no card matches or the payload is not an array |
| Storage.GetCardCount | js/storage.js:126-128 | the count is the length of the list read by `getAllCards`; it is defined exactly when that is an array |
| Storage.Stamp | js/storage.js:34-42 | a falsy timestamp becomes the clock reading and a falsy id a generated id; truthy values are kept; the id is truthy afterwards; no other property changes |
| Storage.SaveCard | js/storage.js:30-51 | succeeds exactly when the payload is an array; then the list becomes the old list plus the stamped card at the end, one longer; on failure nothing changes; the session keys are never touched |
| Storage.RemoveId | js/storage.js:76 | the filtered list contains no card with the id, is a subsequence of the input, and is shorter by exactly the number of cards with the id |
| Storage.DeleteCard | js/storage.js:73-83 | succeeds exactly when the payload is an array, matched or not; then every card with the id is removed, the rest keep their order, and the length drops by the number of matches |
| Storage.DeleteAllCards | js/storage.js:89-97 | always succeeds; afterwards the list reads as empty and the count is 0; the session keys are not touched |
| Storage.UpdateCard | js/storage.js:105-120 | succeeds exactly when an array payload holds a card with the id; then only the first such position changes, to the old card merged with the patch; otherwise nothing changes |
| Storage.GetCurrentCard | js/storage.js:149-157 | the staged card is present exactly when its payload parses, and is that card |
| Storage.SetCurrentCard | js/storage.js:164-172 | reading the stage afterwards gives the card back; the durable list and the autosave are untouched |
| Storage.ClearCurrentCard | js/storage.js:178-186 | reading the stage afterwards gives null; the durable list and the autosave are untouched |
| Storage.ImportCards | js/storage.js:207-219 | succeeds exactly when the parsed text is an array, which then replaces the whole list; otherwise nothing is written |
| Storage.CorruptPayloadReadsEmpty | js/storage.js:15-23 | an unparseable payload reads as the empty list, counts 0, and finds no id |
| Storage.SaveKeepsEarlierCards | js/storage.js:32-45 | after a save, every earlier card is at its old position and the stamped card follows them |
| Storage.SaveTwiceDuplicates | js/storage.js:30-46 | saving the same object twice, the second time as the first save left it stamped, adds two cards with the stamped id, for every card; there is no deduplication |
| Storage.DeleteMissingIdIsNoOp | js/storage.js:73-83 | deleting an id that no card has reports success and leaves the list as it was |
| Storage.DeleteIdempotent | js/storage.js:73-83 | a second delete of the same id changes nothing and reports the same outcome as the first |
| Storage.DeleteAllThenCountIsZero | js/storage.js:89-97 | after deleting everything the count is 0 and no id is found, whatever was stored |
| Storage.ExportImportRoundTrip | js/storage.js:192-219 | importing the export of a list restores the same cards in the same order into any medium |
| Storage.StagingIndependence | js/storage.js:149-186 | stage a card, save it, clear the stage: the stage reads null and the saved card is still found by its id |
| Storage.UpdateMergesExample | js/storage.js:111 | updating {cardID A, Mars, Economy} with {seatClass Business} gives {cardID A, Mars, Business} |
| Text.Trim | js/travel-card.js:44 | the trimmed text is empty exactly when the input is all whitespace |
| Text.TrimSpec | js/travel-card.js:44-45 | the trimmed text is a slice of the input, preceded and followed only by whitespace, and starts and ends with a non-whitespace character |
| Text.ParseIntOfPrefix | js/travel-card.js:68-69 | `parseInt` reads a printed integer back and stops at the first non-digit after it |
| Text.ParseIntOfIntToString | js/travel-card.js:68-69 | reading the printed numeral of an integer with `parseInt` gives the integer back |
| Text.ParseInt | js/travel-card.js:68-69 | the global `parseInt` on an input's text: a blank input reads as NaN |
| Text.ParseIntNeedsDigit | js/travel-card.js:68-69 | `parseInt` gives a number only when the text holds a decimal digit |
| Text.IntToStringInjective | js/main.js:63 | different integers print as different numerals |
| TravelCard.TrimOr | js/travel-card.js:45 | a blank input becomes the sentinel; any other input becomes its non-empty trimmed text |
| TravelCard.CountOrZero | js/travel-card.js:68-69 | NaN, including a blank input, becomes 0; otherwise the parsed integer is kept |
| TravelCard.CollectFormData | js/travel-card.js:40-88 | the card holds the trimmed name, a freshly generated id and the clock reading as its timestamp |
| TravelCard.CollectedProperties | js/travel-card.js:42-85 | a collected card has exactly the 21 properties of the object literal |
| TravelCard.CollectSentinels | js/travel-card.js:44-80 | a blank traveler id is stored as 'N/A' and blank notes as 'None'; otherwise the trimmed texts are stored |
| TravelCard.CollectParsesCounts | js/travel-card.js:68-69 | the bag counts are the parsed integers, and 0 when the input does not parse |
| TravelCard.CollectCopiesControls | js/travel-card.js:48-77 | the selects, the date and time inputs and the checkboxes are copied without change |
| TravelCard.MissingFrom | js/travel-card.js:105-112 | the index found is the first falsy required field; none is found exactly when all are truthy |
| TravelCard.ValidateTravelCardForm | js/travel-card.js:91-134 | valid exactly when every required field is truthy, the departure is not in the past, and the name has at least two characters; otherwise the first failing rule's message, with the first missing field's label |
| TravelCard.ValidationBoundaries | js/travel-card.js:115-131 | a departure at the current instant, a later one or an invalid date passes; one earlier is rejected; a two-character name passes and a one-character name is rejected |
| TravelCard.ValidCardHasDeparture | js/travel-card.js:98-99 | an accepted card always has a departure date and time, so its departure is formatted rather than shown as '-' |
| TravelCard.Submit | js/travel-card.js:13-37 | the verdict is the validator's on the collected card; only a valid card is staged; a rejected one leaves the medium untouched |
| TravelCard.AutoSave | js/travel-card.js:159-171 | the collected card is written to the autosave key exactly when the trimmed name is non-empty; otherwise nothing changes |
| TravelCard.RestoreFormData | js/travel-card.js:213-258 | the sentinels 'N/A' and 'None' are never written back into the traveler id and notes inputs |
| TravelCard.RestoreSnapshot | js/travel-card.js:213-258 | restoring any snapshot that holds a form's values into a blank form gives the form back, whatever other properties the snapshot has |
| TravelCard.CollectHolds | js/travel-card.js:40-88 | a card collected from a form with trimmed texts and plain numerals holds every control's value |
| TravelCard.RestoreAfterCollect | js/travel-card.js:213-258 | collecting such a form and restoring the result into a blank form gives the form back |
| TravelCard.SentinelsNotRestored | js/travel-card.js:216-257 | a blank id or blank notes, and a typed 'N/A' or 'None', are not restored; those inputs keep what they had |
| TravelCard.RestoreOnLoad | js/travel-card.js:175-227 | a missing or unparseable snapshot changes nothing; a declined one is removed; an accepted one is restored into the form, and when it restores a truthy destination type the autosave listener writes the restored form as the new snapshot, otherwise the snapshot stays; the list and the stage are never touched |
| TravelCard.ResetForm | js/travel-card.js:261-268 | the reset removes the snapshot and nothing else |
| TravelCard.AutoSaveThenLoad | js/travel-card.js:159-202 | an autosave accepted on the next load gives the form back; declined, the snapshot is gone |
| TravelCard.AcceptedLoadAutoSavesAgain | js/travel-card.js:159-227 | accepting the snapshot of a named form with a destination type replaces it with the form collected anew, under the new clock reading and id |
| TravelCard.ResetThenLoad | js/travel-card.js:261-268 | after a reset the next load restores nothing |
| ReviewCard.SaveClick | js/review-card.js:124-158 | no staged card, or a stored card with its id, leaves the store unchanged; otherwise the staged card is appended, and the save fails, with nothing written, only on a non-array payload; the session keys are untouched |
| ReviewCard.SavedIsFound | js/review-card.js:143 | after a successful save the staged card is found by its id, as stamped on save; when it already had a timestamp it is the staged card itself |
| ReviewCard.SaveClickKeepsIdsUnique | js/review-card.js:134-143 | from a list without repeated ids, a save click leaves no two stored cards with the same id |
| ReviewCard.RepeatedSaveClicks | js/review-card.js:134-143 | any number of save clicks store what the first click stored |
| ReviewCard.SaveClickSettles | js/review-card.js:134-140 | the click after a click never saves and changes nothing |
| ReviewCard.BeginFlight | js/review-card.js:161-190 | the staged card is saved only when no stored card has its id and the user confirms; otherwise the store is unchanged; the stage is never touched |
| ReviewCard.PromotionClearsWarning | js/review-card.js:229-241 | a save that stores the card or finds it stored, and a confirmed begin-flight on an array payload, leave nothing unsaved |
| ReviewCard.Unsaved | js/review-card.js:229-241 | the unload warning fires exactly when a card is staged and either the payload is not an array or no stored card has the staged card's id |
| ReviewCard.UnsavedMeansSaveWrites | js/review-card.js:229-241 | the unload warning fires exactly when a save click would store the card or fail |
| ReviewCard.OrDefault | js/review-card.js:35-66 | a falsy property shows the page's default; a truthy string shows itself |
| ReviewCard.BagText | js/review-card.js:59-60 | an undefined count shows the default; a defined number, 0 included, shows itself |
| ReviewCard.Accommodations | js/review-card.js:93-97 | a label is listed exactly when its flag is truthy, in the order wheelchair, oxygen, gravity; the list is empty exactly when no flag is truthy |
| ReviewCard.ShowAccommodations | js/review-card.js:99-105 | "None requested" is shown exactly when no flag is truthy; otherwise the badges are the listed labels |
| ReviewCard.ShowNotes | js/review-card.js:109-121 | notes are shown exactly when they are a string that is neither 'None' nor blank, and are shown untrimmed; a truthy non-string throws |
| ReviewCard.DisplayCardData | js/review-card.js:33-72 | the legroom line follows the flag; undefined bag counts show as 1 and 0 bag(s); a missing date or time shows '-' |
| ReviewCard.EmptyCardDefaults | js/review-card.js:33-72 | a card with no properties shows every default text |
| ReviewCard.CollectedBagsShown | js/review-card.js:59-60 | a collected card always shows its parsed bag counts, and a blank input shows as 0 bag(s) |
| ReviewCard.CollectedBlankNotesHidden | js/review-card.js:116 | the 'None' stored for blank notes is never shown as notes |
| MyCards.MatchFrom | js/my-cards.js:243-248 | the or-chain of the callback is true exactly when some field contains the term after every earlier field missed, and false exactly when every field misses; a non-string field reached throws |
| MyCards.MatchesWhenSearchable | js/my-cards.js:241-249 | on a card whose four searched properties are strings, the card is kept exactly when one of them contains the term, ignoring ASCII case |
| MyCards.FilterList | js/my-cards.js:241-249 | the filter fails exactly when the callback throws on some card; otherwise the kept cards are a subsequence of the input, are exactly the matching cards, and each matching card is kept as many times as it occurs |
| MyCards.FilterCards | js/my-cards.js:239-249 | there is a result exactly when the payload is an array and the callback throws on no stored card; it is a subsequence of the stored list holding exactly the matching cards, each as many times as it is stored; it exists whenever the payload is an array of searchable cards |
| MyCards.EmptyTermKeepsAll | js/my-cards.js:242-244 | an empty term keeps every card whose traveler name is a string |
| MyCards.SortByTimeSorted | js/my-cards.js:52 | the sorted list has non-increasing timestamps |
| MyCards.SortByTimeStable | js/my-cards.js:52 | cards with equal timestamps keep their relative order |
| MyCards.DisplayOrder | js/my-cards.js:48-58 | with numeric timestamps the displayed list is a permutation of the input, newest first, and stable; otherwise the order is not defined |
| MyCards.OpenCard | js/my-cards.js:107-134 | a card is opened exactly when one has the id; the staged card is then that card and nothing else changes; otherwise nothing changes |
| MyCards.OpenedCardIsSaved | js/my-cards.js:107-117 | a card opened from the list is never reported as unsaved on the review page |
| MyCards.OpenDeleteModal | js/my-cards.js:137-144 | the dialog remembers the card's id and is shown |
| MyCards.CloseDeleteModal | js/my-cards.js:147-150 | closing always hides the dialog and resets the remembered id to null |
| MyCards.ConfirmDelete | js/my-cards.js:153-165 | a falsy remembered id does nothing; with a truthy id and an array payload the id is deleted from the store and the dialog closes; a failed delete keeps the dialog |
| MyCards.ConfirmDeleteOnce | js/my-cards.js:153-165 | a second confirmation after a first changes nothing |
| MyCards.CancelThenConfirm | js/my-cards.js:147-170 | after cancelling, a confirmation deletes nothing |
| MyCards.OpenConfirmRemoves | js/my-cards.js:137-165 | opening the dialog on a card and confirming removes exactly the cards with its id and keeps the rest in order |
| Utils.DestinationOptions | js/main.js:183-205 | the destination select is enabled exactly for the four destination types, with that type's non-empty list from the destination table |
| Utils.GenerateCardID | js/main.js:60-64 | an id starts with "CARD-" and what follows its last '-' is the draw's numeral |
| Utils.CardIdShape | js/main.js:60-64 | an id's last '-' sits right after the clock's numeral; after it come one to four digits whose value is the draw |
| Utils.CardIdClock | js/main.js:60-64 | `parseInt` on an id after "CARD-" reads the clock value back, stopping at the dash before the draw |
| Utils.CardIdInjective | js/main.js:60-64 | two ids are equal exactly when their clock readings and their random draws are |
| Utils.FormatDateTime | js/main.js:72-85 | a missing date or time shows '-'; otherwise the locale rendering is shown |
| Utils.DistanceFrom | js/main.js:110-116 | scanning from an entry on, the first key that occurs gives its distance; "Unknown Distance" exactly when no remaining key occurs |
| Utils.CalculateDistance | js/main.js:92-117 | the result is the distance of the first key, in table order, that occurs in the destination; "Unknown Distance" exactly when none occurs |
| Utils.DistanceOfFirstHit | js/main.js:110-114 | whenever an entry is the first one whose key occurs, its distance is the result, whatever later keys also occur |
| Utils.TwoWordLabel | js/main.js:213 | a two-word camel-case field name gets one space before its capital and is otherwise unchanged |
| Utils.TravelerNameLabel | js/main.js:213 | the label of travelerName is "traveler Name" |
| Utils.IsBlank | js/main.js:212 | a field counts as present exactly when it is a string that is not blank after trimming |
| Utils.ValidateFrom | js/main.js:211-215 | from a field on, valid exactly when every remaining field is filled; otherwise the first blank field is reported by its label |
| Utils.ValidateForm | js/main.js:208-218 | valid exactly when all seven required fields are non-blank after trimming; otherwise the message names the first blank field's label; only a non-string field throws |

## Left out

- js/flight.js is not part of this model. Its store calls are `getCurrentCard` (flight.js:20) and `clearCurrentCard` (flight.js:436), both of which are modelled.
- Browser plumbing is not modelled: DOM writes, `showNotification`, redirects, the keyboard shortcuts, animations, and the `setTimeout` delays and debouncing. The handlers are modelled as if their delayed parts ran at once, in the order their delays put them, with no user input in between; the autosave that a restore triggers therefore collects the fully restored form.
- Write failures are not modelled. A quota error or disabled storage would make `setItem` throw, but every write here succeeds. `isStorageAvailable` (js/storage.js:134-143) and `getStorageStats` (js/storage.js:233-253) are left out for the same reason, and also because the Blob byte size depends on serialization.
- JSON text, pretty-printing and `exportCards`'s fallback '[]' are not modelled. Export and import work on parsed values.
- Storage.ExportCards: carries no contract of its own, because it returns exactly what `getAllCards` returns. Its property is the round trip in ExportImportRoundTrip.
- Storage.SaveCard: appends `Stamp(card, env)`, a new value, and leaves the argument unchanged. The source also writes the stamp into the caller's object. The modelled callers pass a freshly parsed card and do not use it again; Storage.SaveTwiceDuplicates states what a second save of the same object does.
- Storage.GetCardCount: returns None for a payload that is not an array. The source throws on a payload that parses to `null`. For any other non-array it returns the value's `length` property: a string's length, an object's own `length` property, or `undefined`.
- Imported elements are always card objects. An array of non-objects is not modelled.
- Numbers are integers. Fractional numbers, NaN, and numbers of 1e21 or more, which print in exponent form, are not modelled. Integers above 2^53 (Number.MAX_SAFE_INTEGER) are exact here and rounded in the source, both when `parseInt` reads a bag count and when `JSON.parse` reads a stored card.
- Text.ParseInt: reads decimal numerals only. The "0x" prefix is not modelled.
- Text.Lower: maps only the ASCII capitals.
- TravelCard.ValidateTravelCardForm: the two-character name rule counts characters, not UTF-16 code units, so a name of one character outside the Basic Multilingual Plane is rejected here and accepted in the browser, where it counts as two code units.
- `getRandomSpeed` is not modelled, because it is a floating-point value.
- The second `generateCardID` (js/storage.js:222-226) and the second destination handler (js/travel-card.js:137-154) are not modelled separately. They behave like their js/main.js counterparts, which are modelled.
- Races between browser tabs sharing the medium are not modelled.
- A stored payload that parses to `null` is not modelled: a staged or autosaved slot holds a card or is missing/unparseable.
- A select takes any assigned string. The browser would keep only values that are among its options. In the same way, Utils.DestinationOptions treats only the table's own keys as destination types; a type such as `constructor` or `toString`, which the object inherits, would make the source enable the select and then fail when it iterates over the inherited value.
- The destination is restored at once. The source restores it in a 100 ms timeout, after the destination type's change handler has run.
- Property names outside the card's known set are carried by `Other(name)`. Such a name spelled like a known property is treated as a different key.
- MyCards.DisplayOrder: gives no order when some timestamp is not a `Num`, whatever the engine does then. A `null` timestamp compares as 0, booleans as 0 or 1 and numeric strings as their numbers, so some of those orders are determined in the source.
- Date parsing and locale formatting are parameters. Validation takes the departure instant as an optional integer, and the review page takes the formatted departure as a string.
- The review page's redirect when no card is staged, and the delete-all dialog's visibility, are not modelled. The store effect of deleting all cards is modelled.
- The distance lookup is stated for every destination, through the first matching key. The distances of the individual destinations in the table are not worked out one by one.
- Utils.TravelerNameLabel: states the label of one field, and TwoWordLabel states the rule for every two-word name. The labels of the other fields are not written out.

=== FILE: cards.dfy ===
/** Travel card records as the pages handle them: plain JSON objects whose property
    values are strings, numbers, booleans or null. A property that is not present
    reads as `undefined`, written here as None. */
module Cards {
  import opened Wrappers

  /** A JSON property value. Numbers are integers in this model. */
  datatype Value = Null | Bool(b: bool) | Num(n: int) | Str(s: string)

  /** A property name. The names the pages read and write are constructors of their
      own; `Other` carries any further name an imported or patched card may hold. */
  datatype Key =
    | TravelerName | TravelerID | Spacecraft | DestinationType | Destination
    | DepartureDate | DepartureTime | SeatClass | SeatPreference | ExtraLegroom
    | MealPreference | BeveragePreference | CarryOn | CheckedBags
    | Wheelchair | OxygenSupport | GravityAssist | Entertainment | Notes
    | CardID | Timestamp
    | Other(name: string)

  /** The property name as the source spells it. */
  function Name(k: Key): string {
    match k
    case TravelerName => "travelerName"
    case TravelerID => "travelerID"
    case Spacecraft => "spacecraft"
    case DestinationType => "destinationType"
    case Destination => "destination"
    case DepartureDate => "departureDate"
    case DepartureTime => "departureTime"
    case SeatClass => "seatClass"
    case SeatPreference => "seatPreference"
    case ExtraLegroom => "extraLegroom"
    case MealPreference => "mealPreference"
    case BeveragePreference => "beveragePreference"
    case CarryOn => "carryOn"
    case CheckedBags => "checkedBags"
    case Wheelchair => "wheelchair"
    case OxygenSupport => "oxygenSupport"
    case GravityAssist => "gravityAssist"
    case Entertainment => "entertainment"
    case Notes => "notes"
    case CardID => "cardID"
    case Timestamp => "timestamp"
    case Other(name) => name
  }

  /** A travel card: an open mapping from property names to values. */
  datatype Card = Card(fields: map<Key, Value>) {

    /** `card[key]`: the property's value, or None for `undefined`. */
    function Get(key: Key): Option<Value> {
      if key in fields then Some(fields[key]) else None
    }
  }

  /** JavaScript truthiness of a property read: `undefined`, null, false, 0 and the
      empty string are falsy, every other value is truthy. */
  predicate Truthy(v: Option<Value>) {
    match v
    case None => false
    case Some(Null) => false
    case Some(Bool(b)) => b
    case Some(Num(n)) => n != 0
    case Some(Str(s)) => s != ""
  }

  /** `card.cardID`, compared with `===` by every lookup. */
  function IdOf(c: Card): Option<Value> {
    c.Get(CardID)
  }

  /** The text of a property that holds a string; None when the property is missing
      or holds a non-string, where calling a string method on it throws. */
  function TextOf(c: Card, key: Key): Option<string> {
    match c.Get(key)
    case Some(Str(s)) => Some(s)
    case _ => None
  }

  /** `{ ...c, ...patch }`: a shallow merge in which the patch's properties win. */
  function Merge(c: Card, patch: map<Key, Value>): (r: Card)
    ensures r.fields.Keys == c.fields.Keys + patch.Keys
    ensures forall k :: k in patch ==> r.Get(k) == Some(patch[k])
    ensures forall k :: k !in patch ==> r.Get(k) == c.Get(k)
  {
    Card(c.fields + patch)
  }
}

=== FILE: my_cards.dfy ===
/** js/my-cards.js: the saved-cards page. It lists the stored cards newest first,
    filters them by a search term, opens a card into the staging slot, and deletes a
    card through a confirmation dialog that remembers the id to delete. */
module MyCards {
  import opened Wrappers
  import opened Text
  import opened Cards
  import opened Seqs
  import opened Storage
  import ReviewCard

  // ---------------------------------------------------------------------------
  // Filtering

  /** The properties the search looks in, in the order `filterCards` tries them. */
  const SearchFields: seq<Key> := [TravelerName, Destination, Spacecraft, CardID]

  /** The property holds a string whose lower-cased text contains the lower-cased term. */
  predicate Hit(c: Card, k: Key, term: string) {
    TextOf(c, k).Some? && Contains(Lower(TextOf(c, k).value), Lower(term))
  }

  /** The property holds a string that does not contain the term. */
  predicate Miss(c: Card, k: Key, term: string) {
    TextOf(c, k).Some? && !Contains(Lower(TextOf(c, k).value), Lower(term))
  }

  /** The `||` chain of the filter callback from field `i` on. None stands for the
      TypeError of calling `toLowerCase` on a property that is not a string, which
      only happens when every earlier field missed. */
  function MatchFrom(c: Card, term: string, i: nat): (r: Option<bool>)
    requires i <= |SearchFields|
    ensures r == Some(true) <==>
      exists j :: i <= j < |SearchFields| && Hit(c, SearchFields[j], term)
                  && forall l :: i <= l < j ==> Miss(c, SearchFields[l], term)
    ensures r == Some(false) <==> forall j :: i <= j < |SearchFields| ==> Miss(c, SearchFields[j], term)
    decreases |SearchFields| - i
  {
    if i == |SearchFields| then Some(false)
    else match TextOf(c, SearchFields[i])
      case None => None
      case Some(s) =>
        if Contains(Lower(s), Lower(term)) then Some(true)
        else MatchFrom(c, term, i + 1)
  }

  /** The filter callback for one card. */
  function CardMatches(c: Card, term: string): Option<bool> {
    MatchFrom(c, term, 0)
  }

  /** The four searched properties all hold strings. */
  predicate Searchable(c: Card) {
    forall j :: 0 <= j < |SearchFields| ==> TextOf(c, SearchFields[j]).Some?
  }

  /** On a card whose searched properties are strings, the callback keeps the card
      exactly when one of them contains the term, ignoring ASCII case. */
  lemma MatchesWhenSearchable(c: Card, term: string)
    requires Searchable(c)
    ensures CardMatches(c, term) == Some(exists j :: 0 <= j < |SearchFields| && Hit(c, SearchFields[j], term))
  {
    SearchableNeverThrows(c, term, 0);
  }

  /** With string properties from field `i` on, the chain does not throw. */
  lemma {:induction false} SearchableNeverThrows(c: Card, term: string, i: nat)
    requires i <= |SearchFields|
    requires forall j :: i <= j < |SearchFields| ==> TextOf(c, SearchFields[j]).Some?
    ensures MatchFrom(c, term, i).Some?
    decreases |SearchFields| - i
  {
    if i < |SearchFields| {
      SearchableNeverThrows(c, term, i + 1);
    }
  }

  /** `cards.filter(...)` over a list: None when the callback throws on some card. */
  function FilterList(cs: seq<Card>, term: string): (r: Option<seq<Card>>)
    ensures r.Some? <==> forall c :: c in cs ==> CardMatches(c, term).Some?
    ensures r.Some? ==> IsSubseq(r.value, cs)
    ensures r.Some? ==> forall c :: c in r.value <==> c in cs && CardMatches(c, term) == Some(true)
    ensures r.Some? ==> forall c :: multiset(r.value)[c] == if CardMatches(c, term) == Some(true) then multiset(cs)[c] else 0
  {
    if cs == [] then Some([])
    else match CardMatches(cs[0], term)
      case None => None
      case Some(keep) =>
        match FilterList(cs[1..], term)
        case None => None
        case Some(rest) =>
          assert cs == [cs[0]] + cs[1..];
          Some(if keep then [cs[0]] + rest else rest)
  }

  /** `filterCards`: the stored cards the search term matches, in store order. None
      when the payload is not a list or the callback throws. */
  function FilterCards(m: Medium, term: string): (r: Option<seq<Card>>)
    ensures r.Some? <==> GetAllCards(m).JArray? && forall c :: c in GetAllCards(m).cards ==> CardMatches(c, term).Some?
    ensures r.Some? ==> GetAllCards(m).JArray? && IsSubseq(r.value, GetAllCards(m).cards)
    ensures r.Some? ==> forall c :: c in r.value <==> c in GetAllCards(m).cards && CardMatches(c, term) == Some(true)
    ensures r.Some? ==> forall c :: multiset(r.value)[c] == if CardMatches(c, term) == Some(true) then multiset(GetAllCards(m).cards)[c] else 0
    ensures GetAllCards(m).JArray? && (forall c :: c in GetAllCards(m).cards ==> Searchable(c)) ==> r.Some?
  {
    match GetAllCards(m)
    case JNonArray => None
    case JArray(cs) =>
      forall c | c in cs && Searchable(c)
        ensures CardMatches(c, term).Some?
      {
        MatchesWhenSearchable(c, term);
      }
      FilterList(cs, term)
  }

  /** The empty term is contained in every string. */
  lemma ContainsEmpty(s: string)
    ensures Contains(s, "")
  {
  }

  /** An empty search term keeps every card whose traveler name is a string; the
      other fields are never looked at. */
  lemma {:induction false} EmptyTermKeepsAll(cs: seq<Card>)
    requires forall c :: c in cs ==> TextOf(c, TravelerName).Some?
    ensures FilterList(cs, "") == Some(cs)
  {
    if cs != [] {
      var s := TextOf(cs[0], TravelerName).value;
      ContainsEmpty(Lower(s));
      assert Lower("") == "";
      assert CardMatches(cs[0], "") == Some(true);
      EmptyTermKeepsAll(cs[1..]);
      assert [cs[0]] + cs[1..] == cs;
    }
  }

  // ---------------------------------------------------------------------------
  // Ordering

  /** The numeric timestamp the sort comparator subtracts. */
  function TimeOf(c: Card): Option<int> {
    match c.Get(Timestamp)
    case Some(Num(n)) => Some(n)
    case _ => None
  }

  predicate Timed(cs: seq<Card>) {
    forall j :: 0 <= j < |cs| ==> TimeOf(cs[j]).Some?
  }

  /** Non-increasing timestamps. */
  predicate NewestFirst(cs: seq<Card>)
    requires Timed(cs)
  {
    forall i, j :: 0 <= i < j < |cs| ==> TimeOf(cs[i]).value >= TimeOf(cs[j]).value
  }

  /** The cards with timestamp `t`, in their order. */
  function WithTime(cs: seq<Card>, t: int): (r: seq<Card>)
    ensures |r| <= |cs|
  {
    if cs == [] then []
    else (if TimeOf(cs[0]) == Some(t) then [cs[0]] else []) + WithTime(cs[1..], t)
  }

  /** Puts `x` before the first card that is not strictly newer, so that it stays
      ahead of the cards with its own timestamp that came after it. */
  function Insert(x: Card, s: seq<Card>): (r: seq<Card>)
    requires TimeOf(x).Some? && Timed(s)
    ensures |r| == |s| + 1 && Timed(r)
    ensures multiset(r) == multiset(s) + multiset{x}
  {
    if s == [] || TimeOf(s[0]).value <= TimeOf(x).value then [x] + s
    else
      var r := [s[0]] + Insert(x, s[1..]);
      assert s == [s[0]] + s[1..];
      r
  }

  lemma {:induction false} InsertSorted(x: Card, s: seq<Card>)
    requires TimeOf(x).Some? && Timed(s) && NewestFirst(s)
    ensures NewestFirst(Insert(x, s))
  {
    if !(s == [] || TimeOf(s[0]).value <= TimeOf(x).value) {
      InsertSorted(x, s[1..]);
      var r := Insert(x, s);
      forall j | 0 < j < |r|
        ensures TimeOf(r[0]).value >= TimeOf(r[j]).value
      {
        var tail := Insert(x, s[1..]);
        assert r[j] == tail[j - 1];
        assert r[j] in multiset(tail);
        assert r[j] == x || r[j] in multiset(s[1..]);
        if r[j] != x {
          var k :| 0 <= k < |s[1..]| && s[1..][k] == r[j];
          assert s[k + 1] == r[j];
        }
      }
    }
  }

  /** Inserting keeps the relative order of every timestamp class: `x` lands in
      front of the cards of its own timestamp. */
  lemma {:induction false} InsertStable(x: Card, s: seq<Card>, t: int)
    requires TimeOf(x).Some? && Timed(s) && NewestFirst(s)
    ensures WithTime(Insert(x, s), t) == (if TimeOf(x) == Some(t) then [x] else []) + WithTime(s, t)
  {
    if s == [] || TimeOf(s[0]).value <= TimeOf(x).value {
      assert ([x] + s)[1..] == s;
    } else {
      var r := Insert(x, s);
      assert r[1..] == Insert(x, s[1..]);
      InsertStable(x, s[1..], t);
      if TimeOf(x) == Some(t) {
        assert TimeOf(s[0]) != Some(t);
      }
    }
  }

  /** Stable insertion sort, newest first. */
  function SortByTime(cs: seq<Card>): (r: seq<Card>)
    requires Timed(cs)
    ensures |r| == |cs| && Timed(r)
    ensures multiset(r) == multiset(cs)
  {
    if cs == [] then []
    else
      assert cs == [cs[0]] + cs[1..];
      Insert(cs[0], SortByTime(cs[1..]))
  }

  /** The sort orders by non-increasing timestamp. */
  lemma {:induction false} SortByTimeSorted(cs: seq<Card>)
    requires Timed(cs)
    ensures NewestFirst(SortByTime(cs))
  {
    if cs != [] {
      SortByTimeSorted(cs[1..]);
      InsertSorted(cs[0], SortByTime(cs[1..]));
    }
  }

  /** The sort is stable: the cards of each timestamp keep their relative order. */
  lemma {:induction false} SortByTimeStable(cs: seq<Card>, t: int)
    requires Timed(cs)
    ensures WithTime(SortByTime(cs), t) == WithTime(cs, t)
  {
    if cs != [] {
      SortByTimeSorted(cs[1..]);
      SortByTimeStable(cs[1..], t);
      InsertStable(cs[0], SortByTime(cs[1..]), t);
    }
  }

  /** `cards.sort((a, b) => b.timestamp - a.timestamp)` in `displayCards`. No order
      is given (None) when some card's timestamp is not a `Num`. */
  function DisplayOrder(cs: seq<Card>): (r: Option<seq<Card>>)
    ensures r.Some? <==> Timed(cs)
    ensures r.Some? ==> multiset(r.value) == multiset(cs) && Timed(r.value) && NewestFirst(r.value)
    ensures r.Some? ==> forall t :: WithTime(r.value, t) == WithTime(cs, t)
  {
    if Timed(cs) then
      SortByTimeSorted(cs);
      forall t ensures WithTime(SortByTime(cs), t) == WithTime(cs, t) {
        SortByTimeStable(cs, t);
      }
      Some(SortByTime(cs))
    else None
  }

  // ---------------------------------------------------------------------------
  // Opening a card

  /** `viewCard` and `beginFlight`: the stored card with the id becomes the staged
      card; when no card has the id nothing changes and false is returned. */
  function OpenCard(m: Medium, id: Option<Value>): (r: (Medium, bool))
    ensures r.1 <==> GetCardByID(m, id).Some?
    ensures r.1 ==> GetCurrentCard(r.0) == GetCardByID(m, id) && IdOf(GetCurrentCard(r.0).value) == id
    ensures r.1 ==> SameDurable(m, r.0) && r.0.autosave == m.autosave
    ensures !r.1 ==> r.0 == m
  {
    match GetCardByID(m, id)
    case None => (m, false)
    case Some(card) => (SetCurrentCard(m, card), true)
  }

  /** After opening a stored card the review page has nothing unsaved. */
  lemma OpenedCardIsSaved(m: Medium, id: Option<Value>)
    requires OpenCard(m, id).1
    ensures !ReviewCard.Unsaved(OpenCard(m, id).0)
  {
  }

  // ---------------------------------------------------------------------------
  // The delete dialog

  /** The page state of the delete dialog: the `cardToDelete` variable (None for
      `undefined`, Some(Null) for null) and whether the modal is shown. */
  datatype DeleteDialog = DeleteDialog(cardToDelete: Option<Value>, shown: bool)

  /** The state when the page loads. */
  const Closed := DeleteDialog(Some(Null), false)

  /** `openDeleteModal`: remembers the card's id and shows the modal. */
  function OpenDeleteModal(card: Card): (d: DeleteDialog)
    ensures d.cardToDelete == IdOf(card) && d.shown
  {
    DeleteDialog(IdOf(card), true)
  }

  /** `closeDeleteModal`: hides the modal and forgets the id, whatever the state. */
  function CloseDeleteModal(d: DeleteDialog): (r: DeleteDialog)
    ensures r == Closed && !Truthy(r.cardToDelete)
  {
    DeleteDialog(Some(Null), false)
  }

  /** The confirm button: with a truthy remembered id the card is deleted and the
      dialog closed; a failed delete keeps the dialog; a falsy id does nothing. */
  function ConfirmDelete(m: Medium, d: DeleteDialog): (r: (Medium, DeleteDialog))
    ensures !Truthy(d.cardToDelete) ==> r == (m, d)
    ensures Truthy(d.cardToDelete) && GetAllCards(m).JArray? ==>
              && r.1 == Closed
              && r.0 == DeleteCard(m, d.cardToDelete).0
              && forall c :: c in GetAllCards(r.0).cards ==> IdOf(c) != d.cardToDelete
    ensures !GetAllCards(m).JArray? ==> r == (m, d)
    ensures r.0.current == m.current && r.0.autosave == m.autosave
  {
    if !Truthy(d.cardToDelete) then (m, d)
    else
      var (m', ok) := DeleteCard(m, d.cardToDelete);
      if ok then (m', CloseDeleteModal(d)) else (m, d)
  }

  /** A second confirmation does nothing: the first one forgot the id. */
  lemma ConfirmDeleteOnce(m: Medium, d: DeleteDialog)
    ensures var (m1, d1) := ConfirmDelete(m, d);
            ConfirmDelete(m1, d1) == (m1, d1)
  {
  }

  /** Cancelling leaves the list alone, and a confirmation after it deletes nothing. */
  lemma CancelThenConfirm(m: Medium, d: DeleteDialog)
    ensures ConfirmDelete(m, CloseDeleteModal(d)) == (m, Closed)
  {
  }

  /** Opening the dialog on a stored card with a truthy id and confirming removes
      every card with that id and nothing else. */
  lemma OpenConfirmRemoves(m: Medium, card: Card)
    requires GetAllCards(m).JArray? && Truthy(IdOf(card))
    ensures var (m1, d1) := ConfirmDelete(m, OpenDeleteModal(card));
            && d1 == Closed
            && GetAllCards(m1).JArray?
            && (forall c :: c in GetAllCards(m1).cards ==> IdOf(c) != IdOf(card))
            && IsSubseq(GetAllCards(m1).cards, GetAllCards(m).cards)
            && |GetAllCards(m1).cards| == |GetAllCards(m).cards| - CountId(GetAllCards(m).cards, IdOf(card))
  {
  }
}

=== FILE: review_card.dfy ===
/** js/review-card.js: the review page of the staged card. Its save button and its
    begin-flight button promote the staged card into the card list only when no
    stored card has its id; the unload warning fires while the staged card is not
    stored; the card view fills missing properties with defaults. */
module ReviewCard {
  import opened Wrappers
  import opened Text
  import opened Cards
  import opened Storage
  import Seqs
  import Utils
  import TravelCard

  // ---------------------------------------------------------------------------
  // Promotion

  /** The notification a save click ends with. */
  datatype SaveOutcome = NoCardData | AlreadySaved | Saved | SaveFailed

  /** A stored card has the staged card's id. */
  predicate IsStored(m: Medium, card: Card) {
    GetCardByID(m, IdOf(card)).Some?
  }

  /** The save button's click handler: nothing without a staged card, nothing when a
      stored card already has its id, otherwise `saveCard`. */
  function SaveClick(m: Medium, env: Env): (r: (Medium, SaveOutcome))
    ensures GetCurrentCard(m).None? <==> r.1 == NoCardData
    ensures r.1 in {NoCardData, AlreadySaved, SaveFailed} ==> r.0 == m
    ensures r.1 == AlreadySaved <==> GetCurrentCard(m).Some? && IsStored(m, GetCurrentCard(m).value)
    ensures r.1 == Saved ==>
              && GetAllCards(m).JArray?
              && GetAllCards(r.0) == JArray(GetAllCards(m).cards + [Stamp(GetCurrentCard(m).value, env)])
    ensures r.1 == SaveFailed <==> GetCurrentCard(m).Some? && !GetAllCards(m).JArray?
    ensures r.0.current == m.current && r.0.autosave == m.autosave
  {
    match GetCurrentCard(m)
    case None => (m, NoCardData)
    case Some(card) =>
      if IsStored(m, card) then (m, AlreadySaved)
      else
        var (m', ok) := SaveCard(m, card, env);
        (m', if ok then Saved else SaveFailed)
  }

  /** After a successful save the staged card is found by its id, stamped; when it
      already had a timestamp it is exactly the card that was staged. */
  lemma SavedIsFound(m: Medium, env: Env)
    requires SaveClick(m, env).1 == Saved
    requires Truthy(IdOf(GetCurrentCard(m).value))
    ensures GetCardByID(SaveClick(m, env).0, IdOf(GetCurrentCard(m).value)) == Some(Stamp(GetCurrentCard(m).value, env))
    ensures Truthy(GetCurrentCard(m).value.Get(Timestamp)) ==>
              GetCardByID(SaveClick(m, env).0, IdOf(GetCurrentCard(m).value)) == Some(GetCurrentCard(m).value)
  {
    var card := GetCurrentCard(m).value;
    var stamped := Stamp(card, env);
    var cs := GetAllCards(m).cards;
    var after := GetAllCards(SaveClick(m, env).0).cards;
    assert after == cs + [stamped];
    assert IdOf(stamped) == IdOf(card);
    FindIndexNone(cs, IdOf(card));
    FindIndexAppend(cs, stamped);
    if Truthy(card.Get(Timestamp)) {
      assert stamped.fields == card.fields;
    }
  }

  lemma FindIndexNone(cs: seq<Card>, id: Option<Value>)
    requires FindIndex(cs, id).None?
    ensures forall j :: 0 <= j < |cs| ==> IdOf(cs[j]) != id
  {
  }

  lemma FindIndexAppend(cs: seq<Card>, card: Card)
    requires forall j :: 0 <= j < |cs| ==> IdOf(cs[j]) != IdOf(card)
    ensures FirstMatch(cs + [card], IdOf(card), |cs|)
  {
  }

  /** No two stored cards share an id. */
  predicate UniqueIds(cs: seq<Card>) {
    forall i, j :: 0 <= i < j < |cs| ==> IdOf(cs[i]) != IdOf(cs[j])
  }

  /** A save click keeps the stored ids unique when the staged card carries a
      truthy id, which `saveCard` keeps. */
  lemma SaveClickKeepsIdsUnique(m: Medium, env: Env)
    requires GetAllCards(m).JArray? && UniqueIds(GetAllCards(m).cards)
    requires GetCurrentCard(m).Some? ==> Truthy(IdOf(GetCurrentCard(m).value))
    ensures GetAllCards(SaveClick(m, env).0).JArray?
    ensures UniqueIds(GetAllCards(SaveClick(m, env).0).cards)
  {
    var r := SaveClick(m, env);
    if r.1 == Saved {
      var card := GetCurrentCard(m).value;
      var cs := GetAllCards(m).cards;
      var after := GetAllCards(r.0).cards;
      assert IdOf(after[|cs|]) == IdOf(card);
      FindIndexNone(cs, IdOf(card));
      forall i, j | 0 <= i < j < |after|
        ensures IdOf(after[i]) != IdOf(after[j])
      {
        if j < |cs| {
          assert after[i] == cs[i] && after[j] == cs[j];
        } else {
          assert after[i] == cs[i];
        }
      }
    }
  }

  /** Clicking save once per clock reading in `envs`, in order. */
  function SaveClicks(m: Medium, envs: seq<Env>): (r: Medium)
    ensures r.current == m.current
    decreases |envs|
  {
    if envs == [] then m else SaveClicks(SaveClick(m, envs[0]).0, envs[1..])
  }

  /** Once a click has saved the staged card (or found it saved, or failed on a
      payload that is not a list), every further click changes nothing: any number
      of clicks store what the first one stored. */
  lemma {:induction false} RepeatedSaveClicks(m: Medium, envs: seq<Env>)
    requires |envs| >= 1
    requires GetCurrentCard(m).Some? ==> Truthy(IdOf(GetCurrentCard(m).value))
    ensures SaveClicks(m, envs) == SaveClick(m, envs[0]).0
    decreases |envs|
  {
    var m1 := SaveClick(m, envs[0]).0;
    var rest := envs[1..];
    if rest != [] {
      SaveClickSettles(m, envs[0], rest[0]);
      RepeatedSaveClicks(m1, rest);
    }
  }

  /** The click after a click is a no-op. */
  lemma SaveClickSettles(m: Medium, env1: Env, env2: Env)
    requires GetCurrentCard(m).Some? ==> Truthy(IdOf(GetCurrentCard(m).value))
    ensures SaveClick(m, env1).0.current == m.current
    ensures SaveClick(SaveClick(m, env1).0, env2).1 != Saved
    ensures SaveClick(SaveClick(m, env1).0, env2).0 == SaveClick(m, env1).0
  {
    var (m1, out) := SaveClick(m, env1);
    if out == Saved {
      var card := GetCurrentCard(m).value;
      var cs := GetAllCards(m).cards;
      var after := GetAllCards(m1).cards;
      assert after[|cs|] == Stamp(card, env1);
      assert IdOf(after[|cs|]) == IdOf(card) && after[|cs|] in after;
      assert IsStored(m1, card);
    }
  }

  /** The begin-flight button: with a staged card that no stored card has the id of,
      the user's answer to the confirmation decides whether it is saved. The staged
      card is left in place for the flight page. False when there is no staged card
      and nothing happens. */
  function BeginFlight(m: Medium, confirmed: bool, env: Env): (r: (Medium, bool))
    ensures r.1 <==> GetCurrentCard(m).Some?
    ensures r.0.current == m.current && r.0.autosave == m.autosave
    ensures !r.1 || IsStored(m, GetCurrentCard(m).value) || !confirmed ==> r.0 == m
    ensures r.1 && !IsStored(m, GetCurrentCard(m).value) && confirmed ==>
              r.0 == SaveCard(m, GetCurrentCard(m).value, env).0
  {
    match GetCurrentCard(m)
    case None => (m, false)
    case Some(card) =>
      if !IsStored(m, card) && confirmed then (SaveCard(m, card, env).0, true) else (m, true)
  }

  /** The `beforeunload` predicate: a card is staged and no stored card has its id.
      When the payload is not an array nothing counts as stored, so the warning
      fires for any staged card. */
  predicate Unsaved(m: Medium)
    ensures Unsaved(m) <==>
              && GetCurrentCard(m).Some?
              && (|| !GetAllCards(m).JArray?
                  || forall c :: c in GetAllCards(m).cards ==> IdOf(c) != IdOf(GetCurrentCard(m).value))
  {
    GetCurrentCard(m).Some? && !IsStored(m, GetCurrentCard(m).value)
  }

  /** A save click that succeeds, or that finds the card already stored, clears
      the unload warning; so does a confirmed begin-flight. */
  lemma PromotionClearsWarning(m: Medium, env: Env)
    requires GetCurrentCard(m).Some? ==> Truthy(IdOf(GetCurrentCard(m).value))
    ensures SaveClick(m, env).1 in {Saved, AlreadySaved} ==> !Unsaved(SaveClick(m, env).0)
    ensures GetAllCards(m).JArray? ==> !Unsaved(BeginFlight(m, true, env).0)
  {
    SaveClickSettles(m, env, env);
    if GetCurrentCard(m).Some? && !IsStored(m, GetCurrentCard(m).value) && GetAllCards(m).JArray? {
      assert BeginFlight(m, true, env).0 == SaveClick(m, env).0;
    }
  }

  /** The warning fires exactly when a save click would store the card or fail. */
  lemma UnsavedMeansSaveWrites(m: Medium, env: Env)
    ensures Unsaved(m) <==> SaveClick(m, env).1 in {Saved, SaveFailed}
  {
  }

  // ---------------------------------------------------------------------------
  // Displaying

  /** A value interpolated into a template literal. */
  function TemplateText(v: Value): string {
    match v
    case Null => "null"
    case Bool(b) => if b then "true" else "false"
    case Num(n) => IntToString(n)
    case Str(s) => s
  }

  /** `card.x || fallback`, shown as text. */
  function OrDefault(v: Option<Value>, fallback: string): (r: string)
    ensures !Truthy(v) ==> r == fallback
    ensures v.Some? && v.value.Str? && Truthy(v) ==> r == v.value.s
  {
    if Truthy(v) then TemplateText(v.value) else fallback
  }

  /** A bag count: the property when it is defined, even when it is 0 or null, and
      the page's default otherwise. */
  function BagText(v: Option<Value>, fallback: int): (r: string)
    ensures v.None? ==> r == IntToString(fallback) + " bag(s)"
    ensures v.Some? && v.value.Num? ==> r == IntToString(v.value.n) + " bag(s)"
  {
    (if v.Some? then TemplateText(v.value) else IntToString(fallback)) + " bag(s)"
  }

  const AccommodationKeys: seq<Key> := [Wheelchair, OxygenSupport, GravityAssist]
  const AccommodationLabels: seq<string> :=
    ["Wheelchair Assistance", "Oxygen Support", "Gravity Adjustment Support"]

  /** The badges `displayAccommodations` lists: the labels of the truthy flags, in
      the order wheelchair, oxygen, gravity. */
  function Accommodations(card: Card): (r: seq<string>)
    ensures |r| <= 3
    ensures forall j :: 0 <= j < 3 ==> (AccommodationLabels[j] in r <==> Truthy(card.Get(AccommodationKeys[j])))
    ensures r == [] <==> forall j :: 0 <= j < 3 ==> !Truthy(card.Get(AccommodationKeys[j]))
    ensures Seqs.IsSubseq(r, AccommodationLabels)
  {
    var w := if Truthy(card.Get(Wheelchair)) then ["Wheelchair Assistance"] else [];
    var o := if Truthy(card.Get(OxygenSupport)) then ["Oxygen Support"] else [];
    var g := if Truthy(card.Get(GravityAssist)) then ["Gravity Adjustment Support"] else [];
    LabelsInOrder(w, o, g);
    w + o + g
  }

  lemma LabelsInOrder(w: seq<string>, o: seq<string>, g: seq<string>)
    requires w == [] || w == ["Wheelchair Assistance"]
    requires o == [] || o == ["Oxygen Support"]
    requires g == [] || g == ["Gravity Adjustment Support"]
    ensures Seqs.IsSubseq(w + o + g, AccommodationLabels)
  {
    var labels := AccommodationLabels;
    Seqs.SubseqRefl(labels[2..]);
    assert Seqs.IsSubseq(g, labels[2..]) by {
      if g != [] {
        assert g[1..] == [] && labels[2..][1..] == [];
      }
    }
    assert Seqs.IsSubseq(o + g, labels[1..]) by {
      if o != [] {
        assert (o + g)[0] == labels[1..][0] && (o + g)[1..] == g && labels[1..][1..] == labels[2..];
      } else {
        assert o + g == g && labels[1..][1..] == labels[2..];
        if g != [] {
          assert g[0] != labels[1..][0];
        }
      }
    }
    if w != [] {
      assert (w + o + g)[0] == labels[0] && (w + o + g)[1..] == o + g;
    } else {
      assert w + o + g == o + g;
      if o + g != [] {
        assert (o + g)[0] != labels[0];
      }
    }
  }

  /** What the accommodations area shows. */
  datatype AccommodationsView = Badges(labels: seq<string>) | NoneRequested

  function ShowAccommodations(card: Card): (r: AccommodationsView)
    ensures r == NoneRequested <==> forall j :: 0 <= j < 3 ==> !Truthy(card.Get(AccommodationKeys[j]))
    ensures r.Badges? ==> r.labels == Accommodations(card) && r.labels != []
  {
    var labels := Accommodations(card);
    if |labels| > 0 then Badges(labels) else NoneRequested
  }

  /** What the notes area shows; Fault stands for the TypeError of calling `trim` on a
      truthy non-string. */
  datatype NotesView = Shown(text: string) | NoSpecialRequests | NotesFault

  /** `displayNotes`: shown only when the notes are a non-empty string other than
      'None' that is not all whitespace; shown untrimmed. */
  function ShowNotes(notes: Option<Value>): (r: NotesView)
    ensures r.Shown? <==> notes.Some? && notes.value.Str? && notes.value.s != "None" && !AllSpace(notes.value.s)
    ensures r.Shown? ==> r.text == notes.value.s
    ensures r == NotesFault <==> Truthy(notes) && !notes.value.Str?
  {
    if !Truthy(notes) then NoSpecialRequests
    else match notes.value
      case Str(s) => if s != "None" && Trim(s) != "" then Shown(s) else NoSpecialRequests
      case _ => NotesFault
  }

  /** The texts `displayCardData` puts on the card view. */
  datatype CardView = CardView(
    cardNumber: string, name: string, travelerID: string,
    spacecraft: string, destination: string, departure: string,
    seatClass: string, seatPreference: string, legroom: string,
    meal: string, beverage: string, carryOn: string, checked: string,
    accommodations: AccommodationsView, entertainment: string, notes: NotesView)

  /** `displayCardData`; `localized` is the locale rendering of the departure. */
  function DisplayCardData(card: Card, localized: string): (r: CardView)
    ensures r.legroom == (if Truthy(card.Get(ExtraLegroom)) then "Yes (+$299)" else "No")
    ensures card.Get(CarryOn).None? ==> r.carryOn == "1 bag(s)"
    ensures card.Get(CheckedBags).None? ==> r.checked == "0 bag(s)"
    ensures !Truthy(card.Get(DepartureDate)) || !Truthy(card.Get(DepartureTime)) ==> r.departure == "-"
  {
    CardView(
      OrDefault(IdOf(card), "CARD-XXXX-XXXX"),
      OrDefault(card.Get(TravelerName), "-"),
      OrDefault(card.Get(TravelerID), "N/A"),
      OrDefault(card.Get(Spacecraft), "-"),
      OrDefault(card.Get(Destination), "-"),
      Utils.FormatDateTime(card.Get(DepartureDate), card.Get(DepartureTime), localized),
      OrDefault(card.Get(SeatClass), "-"),
      OrDefault(card.Get(SeatPreference), "Window - View of Space"),
      if Truthy(card.Get(ExtraLegroom)) then "Yes (+$299)" else "No",
      OrDefault(card.Get(MealPreference), "-"),
      OrDefault(card.Get(BeveragePreference), "Space Water - Purified H2O"),
      BagText(card.Get(CarryOn), 1),
      BagText(card.Get(CheckedBags), 0),
      ShowAccommodations(card),
      OrDefault(card.Get(Entertainment), "Ultimate Cosmic - VR, Movies, Games, Music"),
      ShowNotes(card.Get(Notes)))
  }

  /** A card with no properties shows every default. */
  lemma EmptyCardDefaults(localized: string)
    ensures DisplayCardData(Card(map[]), localized) == CardView(
      "CARD-XXXX-XXXX", "-", "N/A", "-", "-", "-", "-", "Window - View of Space", "No",
      "-", "Space Water - Purified H2O", "1 bag(s)", "0 bag(s)", NoneRequested,
      "Ultimate Cosmic - VR, Movies, Games, Music", NoSpecialRequests)
  {
  }

  /** The bag counts of a collected card are always defined, so the view shows the
      parsed counts and never the defaults; a blank input shows as 0. */
  lemma CollectedBagsShown(f: TravelCard.Form, env: Env)
    ensures BagText(TravelCard.CollectFormData(f, env).Get(CarryOn), 1)
            == IntToString(TravelCard.CountOrZero(f.carryOn)) + " bag(s)"
    ensures AllSpace(f.checkedBags) ==>
              BagText(TravelCard.CollectFormData(f, env).Get(CheckedBags), 0) == "0 bag(s)"
  {
    var v := TravelCard.Compute(f, env);
    assert TravelCard.CollectFormData(f, env) == TravelCard.Assemble(f, v);
    BagsOfAssembled(f, v);
    if AllSpace(f.checkedBags) {
      assert v.checkedBags == 0;
      ZeroBags();
    }
  }

  lemma ZeroBags()
    ensures IntToString(0) + " bag(s)" == "0 bag(s)"
  {
  }

  lemma BagsOfAssembled(f: TravelCard.Form, v: TravelCard.Computed)
    ensures BagText(TravelCard.Assemble(f, v).Get(CarryOn), 1) == IntToString(v.carryOn) + " bag(s)"
    ensures BagText(TravelCard.Assemble(f, v).Get(CheckedBags), 0) == IntToString(v.checkedBags) + " bag(s)"
  {
    TravelCard.AssembleCounts(f, v);
  }

  /** The sentinels a collected card stores for blank notes are never shown as notes. */
  lemma CollectedBlankNotesHidden(f: TravelCard.Form, env: Env)
    requires AllSpace(f.notes)
    ensures ShowNotes(TravelCard.CollectFormData(f, env).Get(Notes)) == NoSpecialRequests
  {
    TravelCard.CollectSentinels(f, env);
  }
}

=== FILE: seqs.dfy ===
/** Order-preserving selection from a sequence. */
module Seqs {

  /** `a` is obtained from `b` by dropping elements, keeping the rest in order. */
  predicate IsSubseq<T(==)>(a: seq<T>, b: seq<T>) {
    if a == [] then true
    else if b == [] then false
    else (a[0] == b[0] && IsSubseq(a[1..], b[1..])) || IsSubseq(a, b[1..])
  }

  lemma {:induction false} SubseqRefl<T>(a: seq<T>)
    ensures IsSubseq(a, a)
  {
    if a != [] {
      SubseqRefl(a[1..]);
    }
  }
}

=== FILE: storage.dfy ===
/** js/storage.js: the durable list of saved travel cards (localStorage key
    'intergalactic_travel_cards') and the single staged card (sessionStorage key
    'current_travel_card'). JSON text is modelled at the value level: a slot holds
    either nothing, text that does not parse, or the value the text denotes. */
module Storage {
  import opened Wrappers
  import opened Cards
  import opened Seqs
  import Utils

  /** The top-level shape of a parsed durable payload: an array of card objects, or
      any other JSON value. */
  datatype Json = JArray(cards: seq<Card>) | JNonArray

  /** One key of a storage medium: absent, holding unparseable text, or holding the
      text of a JSON value. */
  datatype Slot<T> = Missing | Unparseable | Parsed(value: T)

  /** The three keys the pages use: the durable card list, the staged ("current")
      card, and the form autosave snapshot ('autosave_travel_card'). */
  datatype Medium = Medium(durable: Slot<Json>, current: Slot<Card>, autosave: Slot<Card>)

  /** The clock readings and the random draw one call consumes: `Date.now()` for a
      timestamp, `Date.now()` inside `generateCardID`, and its `Math.random()` draw. */
  datatype Env = Env(now: int, idClock: int, draw: Utils.Draw)

  /** The card list a caller sees: unchanged by every operation that only touches
      the session keys. */
  predicate SameDurable(m: Medium, m': Medium) {
    m'.durable == m.durable
  }

  // ---------------------------------------------------------------------------
  // Reading

  /** `getAllCards`: the parsed list; an absent key or an unparseable payload reads
      as the empty list instead of failing. */
  function GetAllCards(m: Medium): (r: Json)
    ensures !m.durable.Parsed? ==> r == JArray([])
    ensures m.durable.Parsed? ==> r == m.durable.value
  {
    match m.durable
    case Parsed(v) => v
    case _ => JArray([])
  }

  /** `i` is the position of the first card whose id is `id`. */
  predicate FirstMatch(cs: seq<Card>, id: Option<Value>, i: int) {
    && 0 <= i < |cs|
    && IdOf(cs[i]) == id
    && forall j :: 0 <= j < i ==> IdOf(cs[j]) != id
  }

  /** `cards.findIndex(card => card.cardID === id)`, with None for -1. */
  function FindIndex(cs: seq<Card>, id: Option<Value>): (r: Option<nat>)
    ensures r.Some? ==> FirstMatch(cs, id, r.value)
    ensures r.None? <==> forall j :: 0 <= j < |cs| ==> IdOf(cs[j]) != id
  {
    if cs == [] then None
    else if IdOf(cs[0]) == id then Some(0)
    else match FindIndex(cs[1..], id)
      case None => None
      case Some(k) => Some(k + 1)
  }

  /** `getCardByID`: the first stored card whose id is `id`, in store order; null
      when none matches or when the payload is not an array (`find` throws). */
  function GetCardByID(m: Medium, id: Option<Value>): (r: Option<Card>)
    ensures r.Some? ==> GetAllCards(m).JArray?
    ensures r.Some? ==> exists i :: FirstMatch(GetAllCards(m).cards, id, i) && r.value == GetAllCards(m).cards[i]
    ensures r.None? <==> !GetAllCards(m).JArray? || forall c :: c in GetAllCards(m).cards ==> IdOf(c) != id
  {
    match GetAllCards(m)
    case JNonArray => None
    case JArray(cs) =>
      match FindIndex(cs, id)
      case None => None
      case Some(i) => Some(cs[i])
  }

  /** `getCardCount`: the length of the list. None stands for the non-number the
      source produces when the payload is not an array. */
  function GetCardCount(m: Medium): (r: Option<nat>)
    ensures r.Some? <==> GetAllCards(m).JArray?
    ensures r.Some? ==> r.value == |GetAllCards(m).cards|
  {
    match GetAllCards(m)
    case JArray(cs) => Some(|cs|)
    case JNonArray => None
  }

  // ---------------------------------------------------------------------------
  // Writing

  function Persist(m: Medium, cs: seq<Card>): Medium {
    m.(durable := Parsed(JArray(cs)))
  }

  /** The card `saveCard` appends: a falsy `timestamp` becomes the clock reading and a
      falsy `cardID` a fresh generated id; truthy values are kept, other properties
      are untouched. */
  function Stamp(card: Card, env: Env): (r: Card)
    ensures Truthy(card.Get(Timestamp)) ==> r.Get(Timestamp) == card.Get(Timestamp)
    ensures !Truthy(card.Get(Timestamp)) ==> r.Get(Timestamp) == Some(Num(env.now))
    ensures Truthy(IdOf(card)) ==> IdOf(r) == IdOf(card)
    ensures !Truthy(IdOf(card)) ==> IdOf(r) == Some(Str(Utils.GenerateCardID(env.idClock, env.draw)))
    ensures Truthy(IdOf(r))
    ensures forall k :: k != Timestamp && k != CardID ==> r.Get(k) == card.Get(k)
  {
    var withTime := if Truthy(card.Get(Timestamp)) then card.fields
                    else card.fields[Timestamp := Num(env.now)];
    var id := Utils.GenerateCardID(env.idClock, env.draw);
    assert |id| >= 5;
    var withId := if Truthy(IdOf(card)) then withTime else withTime[CardID := Str(id)];
    Card(withId)
  }

  /** `saveCard`: appends the stamped card at the end of the list; every earlier
      card stays where it was. There is no check for an existing id. When the
      payload is not an array `push` throws and nothing is written. */
  function SaveCard(m: Medium, card: Card, env: Env): (r: (Medium, bool))
    ensures r.1 <==> GetAllCards(m).JArray?
    ensures r.1 ==> GetAllCards(r.0) == JArray(GetAllCards(m).cards + [Stamp(card, env)])
    ensures r.1 ==> |GetAllCards(r.0).cards| == |GetAllCards(m).cards| + 1
    ensures !r.1 ==> r.0 == m
    ensures r.0.current == m.current && r.0.autosave == m.autosave
  {
    match GetAllCards(m)
    case JNonArray => (m, false)
    case JArray(cs) => (Persist(m, cs + [Stamp(card, env)]), true)
  }

  /** Number of cards whose id is `id`. */
  function CountId(cs: seq<Card>, id: Option<Value>): (n: nat)
    ensures n <= |cs|
    ensures n == 0 <==> forall c :: c in cs ==> IdOf(c) != id
  {
    if cs == [] then 0
    else (if IdOf(cs[0]) == id then 1 else 0) + CountId(cs[1..], id)
  }

  /** `cards.filter(card => card.cardID !== id)`. */
  function RemoveId(cs: seq<Card>, id: Option<Value>): (r: seq<Card>)
    ensures forall c :: c in r ==> IdOf(c) != id
    ensures IsSubseq(r, cs)
    ensures |r| == |cs| - CountId(cs, id)
  {
    if cs == [] then []
    else if IdOf(cs[0]) == id then RemoveId(cs[1..], id)
    else [cs[0]] + RemoveId(cs[1..], id)
  }

  /** `deleteCard`: removes every card with that id and keeps the others in order;
      succeeds whether or not anything matched. When the payload is not an array
      `filter` throws and nothing is written. */
  function DeleteCard(m: Medium, id: Option<Value>): (r: (Medium, bool))
    ensures r.1 <==> GetAllCards(m).JArray?
    ensures r.1 ==> GetAllCards(r.0).JArray?
    ensures r.1 ==> forall c :: c in GetAllCards(r.0).cards ==> IdOf(c) != id
    ensures r.1 ==> IsSubseq(GetAllCards(r.0).cards, GetAllCards(m).cards)
    ensures r.1 ==> |GetAllCards(r.0).cards| == |GetAllCards(m).cards| - CountId(GetAllCards(m).cards, id)
    ensures !r.1 ==> r.0 == m
    ensures r.0.current == m.current && r.0.autosave == m.autosave
  {
    match GetAllCards(m)
    case JNonArray => (m, false)
    case JArray(cs) => (Persist(m, RemoveId(cs, id)), true)
  }

  /** `deleteAllCards`: removes the key, so the list reads as empty. */
  function DeleteAllCards(m: Medium): (r: (Medium, bool))
    ensures r.1
    ensures GetAllCards(r.0) == JArray([]) && GetCardCount(r.0) == Some(0)
    ensures r.0.current == m.current && r.0.autosave == m.autosave
  {
    (m.(durable := Missing), true)
  }

  /** `updateCard`: the first card with that id becomes `{ ...old, ...patch }` and
      every other position is unchanged; false, with nothing written, when no card
      has the id or the payload is not an array. */
  function UpdateCard(m: Medium, id: Option<Value>, patch: map<Key, Value>): (r: (Medium, bool))
    ensures r.1 <==> GetAllCards(m).JArray? && exists c :: c in GetAllCards(m).cards && IdOf(c) == id
    ensures r.1 ==> exists i :: FirstMatch(GetAllCards(m).cards, id, i)
                      && GetAllCards(r.0) == JArray(GetAllCards(m).cards[i := Merge(GetAllCards(m).cards[i], patch)])
    ensures !r.1 ==> r.0 == m
    ensures r.0.current == m.current && r.0.autosave == m.autosave
  {
    match GetAllCards(m)
    case JNonArray => (m, false)
    case JArray(cs) =>
      match FindIndex(cs, id)
      case None => (m, false)
      case Some(i) => (Persist(m, cs[i := Merge(cs[i], patch)]), true)
  }

  // ---------------------------------------------------------------------------
  // The staged card

  /** `getCurrentCard`: the staged card; null when the key is absent or its payload
      does not parse. */
  function GetCurrentCard(m: Medium): (r: Option<Card>)
    ensures r.Some? <==> m.current.Parsed?
    ensures r.Some? ==> r.value == m.current.value
  {
    match m.current
    case Parsed(c) => Some(c)
    case _ => None
  }

  /** `setCurrentCard`: overwrites the staged card; the card list is not touched. */
  function SetCurrentCard(m: Medium, card: Card): (r: Medium)
    ensures GetCurrentCard(r) == Some(card)
    ensures SameDurable(m, r) && r.autosave == m.autosave
  {
    m.(current := Parsed(card))
  }

  /** `clearCurrentCard`: removes the staged card; the card list is not touched. */
  function ClearCurrentCard(m: Medium): (r: Medium)
    ensures GetCurrentCard(r) == None
    ensures SameDurable(m, r) && r.autosave == m.autosave
  {
    m.(current := Missing)
  }

  // ---------------------------------------------------------------------------
  // Backup

  /** `exportCards`: the JSON value the exported text denotes, which is whatever
      `getAllCards` returns. */
  function ExportCards(m: Medium): Json {
    GetAllCards(m)
  }

  /** `importCards`: `parsed` is the result of `JSON.parse` on the backup text (None
      when it throws). An array replaces the whole list; anything else is refused
      and nothing is written. */
  function ImportCards(m: Medium, parsed: Option<Json>): (r: (Medium, bool))
    ensures r.1 <==> parsed.Some? && parsed.value.JArray?
    ensures r.1 ==> GetAllCards(r.0) == parsed.value
    ensures !r.1 ==> r.0 == m
    ensures r.0.current == m.current && r.0.autosave == m.autosave
  {
    match parsed
    case Some(JArray(cs)) => (Persist(m, cs), true)
    case _ => (m, false)
  }

  // ---------------------------------------------------------------------------
  // Properties

  /** A payload that does not parse reads as an empty list with count 0. */
  lemma CorruptPayloadReadsEmpty(m: Medium)
    requires m.durable == Unparseable
    ensures GetAllCards(m) == JArray([]) && GetCardCount(m) == Some(0)
    ensures forall id :: GetCardByID(m, id) == None
  {
  }

  /** Saving keeps every earlier card at its position and puts the stamped card last. */
  lemma SaveKeepsEarlierCards(m: Medium, card: Card, env: Env)
    requires GetAllCards(m).JArray?
    ensures var after := GetAllCards(SaveCard(m, card, env).0).cards;
            var before := GetAllCards(m).cards;
            && |after| == |before| + 1
            && after[..|before|] == before
            && after[|before|] == Stamp(card, env)
  {
    var after := GetAllCards(SaveCard(m, card, env).0).cards;
    assert after == GetAllCards(m).cards + [Stamp(card, env)];
  }

  /** `saveCard` does not deduplicate: saving the same object twice stores two
      cards with one id. The first save stamps the object in place, so the second
      save is handed the stamped card, whose id is already truthy and is kept. */
  lemma {:induction false} SaveTwiceDuplicates(m: Medium, card: Card, env1: Env, env2: Env)
    requires GetAllCards(m).JArray?
    ensures var stamped := Stamp(card, env1);
            var m2 := SaveCard(SaveCard(m, card, env1).0, stamped, env2).0;
            CountId(GetAllCards(m2).cards, IdOf(stamped)) == CountId(GetAllCards(m).cards, IdOf(stamped)) + 2
  {
    var cs := GetAllCards(m).cards;
    var stamped := Stamp(card, env1);
    var again := Stamp(stamped, env2);
    var id := IdOf(stamped);
    var m2 := SaveCard(SaveCard(m, card, env1).0, stamped, env2).0;
    assert GetAllCards(m2).cards == cs + [stamped] + [again];
    assert IdOf(again) == id;
    CountIdAppend(cs, [stamped], id);
    CountIdAppend(cs + [stamped], [again], id);
    assert CountId([stamped], id) == 1;
    assert CountId([again], id) == 1;
  }

  lemma {:induction false} CountIdAppend(a: seq<Card>, b: seq<Card>, id: Option<Value>)
    ensures CountId(a + b, id) == CountId(a, id) + CountId(b, id)
  {
    if a != [] {
      assert (a + b)[1..] == a[1..] + b;
      CountIdAppend(a[1..], b, id);
    } else {
      assert a + b == b;
    }
  }

  lemma {:induction false} RemoveIdAbsent(cs: seq<Card>, id: Option<Value>)
    requires CountId(cs, id) == 0
    ensures RemoveId(cs, id) == cs
  {
    if cs != [] {
      RemoveIdAbsent(cs[1..], id);
    }
  }

  /** Deleting an id that no card has still succeeds and leaves the list as it was. */
  lemma DeleteMissingIdIsNoOp(m: Medium, id: Option<Value>)
    requires GetAllCards(m).JArray? && CountId(GetAllCards(m).cards, id) == 0
    ensures DeleteCard(m, id).1
    ensures GetAllCards(DeleteCard(m, id).0) == GetAllCards(m)
  {
    RemoveIdAbsent(GetAllCards(m).cards, id);
  }

  /** Deleting an id twice has the effect of deleting it once, and both calls report
      the same outcome. */
  lemma DeleteIdempotent(m: Medium, id: Option<Value>)
    ensures var (m1, ok1) := DeleteCard(m, id);
            DeleteCard(m1, id) == (m1, ok1)
  {
    var (m1, ok1) := DeleteCard(m, id);
    if ok1 {
      var rest := RemoveId(GetAllCards(m).cards, id);
      RemoveIdAbsent(rest, id);
    }
  }

  /** `deleteAllCards` followed by `getCardCount` gives 0, whatever was stored. */
  lemma DeleteAllThenCountIsZero(m: Medium)
    ensures GetCardCount(DeleteAllCards(m).0) == Some(0)
    ensures forall id :: GetCardByID(DeleteAllCards(m).0, id) == None
  {
  }

  /** Importing what was exported restores the same list, in the same order, into
      any medium. */
  lemma ExportImportRoundTrip(m: Medium, target: Medium)
    requires GetAllCards(m).JArray?
    ensures ImportCards(target, Some(ExportCards(m))).1
    ensures GetAllCards(ImportCards(target, Some(ExportCards(m))).0) == GetAllCards(m)
  {
  }

  /** Staging and saving are independent: stage a card, save it, clear the stage;
      the stage is empty and the saved card is still found by its id. */
  lemma StagingIndependence(m: Medium, card: Card, env: Env)
    requires GetAllCards(m).JArray?
    requires Truthy(IdOf(card)) && Truthy(card.Get(Timestamp))
    requires CountId(GetAllCards(m).cards, IdOf(card)) == 0
    ensures var m1 := SetCurrentCard(m, card);
            var m3 := ClearCurrentCard(SaveCard(m1, card, env).0);
            GetCurrentCard(m3) == None && GetCardByID(m3, IdOf(card)) == Some(card)
  {
    var m1 := SetCurrentCard(m, card);
    var m2 := SaveCard(m1, card, env).0;
    var cs := GetAllCards(m).cards;
    assert Stamp(card, env).fields == card.fields;
    var after := GetAllCards(m2).cards;
    assert after == cs + [card];
    forall j | 0 <= j < |cs|
      ensures IdOf(after[j]) != IdOf(card)
    {
      assert after[j] == cs[j] && cs[j] in cs;
    }
    assert after[|cs|] == card;
  }

  /** A shallow merge on one stored card: updating `{cardID:"A", destination:"Mars",
      seatClass:"Economy"}` with `{seatClass:"Business"}` replaces the seat class and
      keeps the other properties. */
  lemma UpdateMergesExample()
    ensures
      var card := Card(map[CardID := Str("A"), Destination := Str("Mars"), SeatClass := Str("Economy")]);
      var m := Medium(Parsed(JArray([card])), Missing, Missing);
      var r := UpdateCard(m, Some(Str("A")), map[SeatClass := Str("Business")]);
      r.1 && GetAllCards(r.0) == JArray([Card(map[CardID := Str("A"), Destination := Str("Mars"), SeatClass := Str("Business")])])
  {
    var card := Card(map[CardID := Str("A"), Destination := Str("Mars"), SeatClass := Str("Economy")]);
    assert IdOf(card) == Some(Str("A"));
    var merged := card.fields + map[SeatClass := Str("Business")];
    var expected := map[CardID := Str("A"), Destination := Str("Mars"), SeatClass := Str("Business")];
    assert merged.Keys == expected.Keys;
    assert forall k :: k in merged ==> merged[k] == expected[k];
    assert merged == expected;
  }
}

=== FILE: text.dfy ===
/** The JavaScript string built-ins the cards code relies on: `trim`, `toLowerCase`,
    `includes`, number-to-string conversion in template literals, and `parseInt`. */
module Text {
  import opened Wrappers

  /** The WhiteSpace and LineTerminator characters of ECMA-262, which `trim` and
      `parseInt` skip. */
  predicate IsSpace(c: char) {
    || c == '\t' || c == '\n' || c == '\U{000B}' || c == '\U{000C}' || c == '\r' || c == ' '
    || c == '\U{00A0}' || c == '\U{1680}' || ('\U{2000}' <= c <= '\U{200A}')
    || c == '\U{2028}' || c == '\U{2029}' || c == '\U{202F}' || c == '\U{205F}'
    || c == '\U{3000}' || c == '\U{FEFF}'
  }

  predicate AllSpace(s: string) {
    forall k :: 0 <= k < |s| ==> IsSpace(s[k])
  }

  /** Number of whitespace characters at the start of `s`. */
  function LeadCount(s: string): (n: nat)
    ensures n <= |s|
  {
    if |s| > 0 && IsSpace(s[0]) then 1 + LeadCount(s[1..]) else 0
  }

  /** The leading run is all whitespace and stops at the first other character. */
  lemma {:induction false} LeadCountSpec(s: string)
    ensures AllSpace(s[..LeadCount(s)])
    ensures LeadCount(s) < |s| ==> !IsSpace(s[LeadCount(s)])
  {
    if |s| > 0 && IsSpace(s[0]) {
      LeadCountSpec(s[1..]);
      var n := LeadCount(s);
      assert forall k :: 1 <= k < n ==> s[..n][k] == s[1..][..n - 1][k - 1];
    }
  }

  /** Number of whitespace characters at the end of `s`. */
  function TrailCount(s: string): (n: nat)
    ensures n <= |s|
  {
    if |s| > 0 && IsSpace(s[|s| - 1]) then 1 + TrailCount(s[..|s| - 1]) else 0
  }

  /** The trailing run is all whitespace and starts after the last other character. */
  lemma {:induction false} TrailCountSpec(s: string)
    ensures AllSpace(s[|s| - TrailCount(s)..])
    ensures TrailCount(s) < |s| ==> !IsSpace(s[|s| - TrailCount(s) - 1])
  {
    if |s| > 0 && IsSpace(s[|s| - 1]) {
      var p := s[..|s| - 1];
      TrailCountSpec(p);
      var n := TrailCount(s);
      assert s[|s| - n..] == p[|p| - (n - 1)..] + [s[|s| - 1]];
    }
  }

  /** `String.prototype.trim`: the text between the leading and the trailing whitespace. */
  function Trim(s: string): (r: string)
    ensures r == "" <==> AllSpace(s)
  {
    var a := LeadCount(s);
    var b := TrailCount(s[a..]);
    TrimParts(s, a, b);
    s[a..|s| - b]
  }

  /** What `trim` removes is whitespace on both sides, and what it keeps starts and
      ends with a non-whitespace character. */
  lemma TrimSpec(s: string)
    ensures Trim(s) != "" ==> !IsSpace(Trim(s)[0]) && !IsSpace(Trim(s)[|Trim(s)| - 1])
    ensures exists a :: 0 <= a <= |s| - |Trim(s)| && Trim(s) == s[a..a + |Trim(s)|]
                        && AllSpace(s[..a]) && AllSpace(s[a + |Trim(s)|..])
  {
    var a := LeadCount(s);
    var b := TrailCount(s[a..]);
    LeadEnd(s, a);
    TrailEnd(s, a, b);
    var r := Trim(s);
    assert r == s[a..|s| - b];
    assert a + |r| == |s| - b;
    assert 0 <= a <= |s| - |r| && r == s[a..a + |r|] && AllSpace(s[..a]) && AllSpace(s[a + |r|..]);
  }

  lemma TrimParts(s: string, a: nat, b: nat)
    requires a == LeadCount(s) && b == TrailCount(s[a..])
    ensures a <= |s| - b
    ensures s[a..|s| - b] == "" <==> AllSpace(s)
    ensures a < |s| - b ==> !IsSpace(s[a]) && !IsSpace(s[|s| - b - 1])
    ensures AllSpace(s[..a]) && AllSpace(s[|s| - b..])
  {
    LeadEnd(s, a);
    TrailEnd(s, a, b);
    TrailStopsAtLead(s, a, b);
    assert a == |s| ==> s[..a] == s;
  }

  /** The leading run is whitespace and is followed by another character. */
  lemma LeadEnd(s: string, a: nat)
    requires a == LeadCount(s)
    ensures AllSpace(s[..a])
    ensures a < |s| ==> !IsSpace(s[a])
    ensures AllSpace(s) ==> a == |s|
  {
    LeadCountSpec(s);
  }

  /** The trailing run after the leading one is whitespace and is preceded by
      another character. */
  lemma TrailEnd(s: string, a: nat, b: nat)
    requires a <= |s| && b == TrailCount(s[a..])
    ensures a <= |s| - b
    ensures AllSpace(s[|s| - b..])
    ensures a < |s| - b ==> !IsSpace(s[|s| - b - 1])
  {
    var t := s[a..];
    TrailCountSpec(t);
    assert s[|s| - b..] == t[|t| - b..];
    if a < |s| - b {
      assert s[|s| - b - 1] == t[|t| - b - 1];
    }
  }

  /** When something follows the leading run, the trailing run stops before it. */
  lemma TrailStopsAtLead(s: string, a: nat, b: nat)
    requires a == LeadCount(s) && b == TrailCount(s[a..])
    ensures a < |s| ==> b < |s| - a
  {
    if a < |s| {
      LeadCountSpec(s);
      var t := s[a..];
      assert !IsSpace(t[0]);
      TrailCountSpec(t);
    }
  }

  /** `toLowerCase` on one character; only the ASCII letters are mapped. */
  function LowerChar(c: char): char {
    if 'A' <= c <= 'Z' then (c as int + 32) as char else c
  }

  /** `String.prototype.toLowerCase`, restricted to the ASCII letters. */
  function Lower(s: string): (r: string)
    ensures |r| == |s|
  {
    seq(|s|, k requires 0 <= k < |s| => LowerChar(s[k]))
  }

  /** `String.prototype.includes`: `sub` occurs in `s` at some position. */
  predicate Contains(s: string, sub: string) {
    sub <= s || (|s| > 0 && Contains(s[1..], sub))
  }

  predicate IsDigit(c: char) {
    '0' <= c <= '9'
  }

  predicate AllDigits(s: string) {
    forall k :: 0 <= k < |s| ==> IsDigit(s[k])
  }

  function DigitVal(c: char): nat
    requires IsDigit(c)
  {
    c as int - '0' as int
  }

  function DigitChar(d: nat): (c: char)
    requires d < 10
    ensures IsDigit(c) && DigitVal(c) == d
  {
    (d + '0' as int) as char
  }

  /** Decimal numeral of `n`, as a template literal prints a non-negative integer. */
  function NatToString(n: nat): (r: string)
    ensures r != []
  {
    if n < 10 then [DigitChar(n)] else NatToString(n / 10) + [DigitChar(n % 10)]
  }

  lemma {:induction false} NatToStringDigits(n: nat)
    ensures AllDigits(NatToString(n))
  {
    if n >= 10 {
      NatToStringDigits(n / 10);
    }
  }

  /** Decimal numeral of `i`, with a leading '-' for a negative number. */
  function IntToString(i: int): (r: string)
    ensures r != []
  {
    if i < 0 then "-" + NatToString(-i) else NatToString(i)
  }

  /** The number a non-empty run of decimal digits denotes. */
  function DigitsValue(s: string): nat
    requires AllDigits(s)
  {
    if s == [] then 0 else DigitsValue(s[..|s| - 1]) * 10 + DigitVal(s[|s| - 1])
  }

  /** Length of the longest prefix of `s` made of decimal digits. */
  function DigitRun(s: string): (n: nat)
    ensures n <= |s|
  {
    if |s| > 0 && IsDigit(s[0]) then 1 + DigitRun(s[1..]) else 0
  }

  /** The run is all digits and stops at the first non-digit. */
  lemma {:induction false} DigitRunSpec(s: string)
    ensures AllDigits(s[..DigitRun(s)])
    ensures DigitRun(s) < |s| ==> !IsDigit(s[DigitRun(s)])
  {
    if |s| > 0 && IsDigit(s[0]) {
      DigitRunSpec(s[1..]);
      var n := DigitRun(s);
      assert forall k :: 1 <= k < n ==> s[..n][k] == s[1..][..n - 1][k - 1];
    }
  }

  /** The number the leading digits of `u` denote, or None when `u` does not
      start with a digit. */
  function LeadingDigits(u: string): (r: Option<nat>)
    ensures r.Some? ==> |u| > 0 && IsDigit(u[0])
  {
    var d := DigitRun(u);
    DigitRunSpec(u);
    if d == 0 then None
    else
      assert u[..d][0] == u[0];
      Some(DigitsValue(u[..d]))
  }

  /** The global `parseInt` without a radix, on decimal numerals: skip leading
      whitespace, read an optional sign, then the longest run of digits.
      None stands for NaN (no digit after the sign). */
  function ParseInt(s: string): (r: Option<int>)
    ensures AllSpace(s) ==> r == None
  {
    var t := s[LeadCount(s)..];
    if |t| > 0 && t[0] == '-' then
      match LeadingDigits(t[1..])
      case None => None
      case Some(v) => Some(-(v as int))
    else if |t| > 0 && t[0] == '+' then
      match LeadingDigits(t[1..])
      case None => None
      case Some(v) => Some(v)
    else
      match LeadingDigits(t)
      case None => None
      case Some(v) => Some(v)
  }

  /** `parseInt` gives a number only when the string holds a digit. */
  lemma ParseIntNeedsDigit(s: string)
    ensures ParseInt(s).Some? ==> exists k :: 0 <= k < |s| && IsDigit(s[k])
  {
    if ParseInt(s).Some? {
      var a := LeadCount(s);
      var t := s[a..];
      if |t| > 0 && (t[0] == '-' || t[0] == '+') {
        assert IsDigit(s[a + 1]);
      } else {
        assert IsDigit(s[a]);
      }
    }
  }

  lemma {:induction false} NatToStringValue(n: nat)
    ensures AllDigits(NatToString(n)) && DigitsValue(NatToString(n)) == n
  {
    NatToStringDigits(n);
    if n >= 10 {
      var p := NatToString(n / 10);
      var r := p + [DigitChar(n % 10)];
      assert r[..|r| - 1] == p;
      NatToStringValue(n / 10);
    }
  }

  lemma {:induction false} DigitRunOfDigits(s: string)
    requires AllDigits(s)
    ensures DigitRun(s) == |s|
  {
    if s != [] {
      DigitRunOfDigits(s[1..]);
    }
  }

  /** A run of digits followed by a non-digit (or nothing) is read up to that
      non-digit. */
  lemma {:induction false} DigitRunStops(a: string, b: string)
    requires AllDigits(a)
    requires b == [] || !IsDigit(b[0])
    ensures DigitRun(a + b) == |a|
  {
    if a != [] {
      assert (a + b)[1..] == a[1..] + b;
      DigitRunStops(a[1..], b);
    }
  }

  /** `parseInt` reads a printed integer back and ignores whatever follows it,
      provided that does not start with a digit. */
  lemma LeadingDigitsOfPrefix(n: nat, rest: string)
    requires rest == [] || !IsDigit(rest[0])
    ensures LeadingDigits(NatToString(n) + rest) == Some(n)
  {
    var digits := NatToString(n);
    NatToStringValue(n);
    DigitRunStops(digits, rest);
    assert (digits + rest)[..|digits|] == digits;
  }

  lemma ParseIntOfPrefix(i: int, rest: string)
    requires rest == [] || !IsDigit(rest[0])
    ensures ParseInt(IntToString(i) + rest) == Some(i)
  {
    var s := IntToString(i) + rest;
    var n: nat := if i < 0 then -i else i;
    LeadingDigitsOfPrefix(n, rest);
    NatToStringDigits(n);
    assert LeadCount(s) == 0 by {
      assert !IsSpace(s[0]);
    }
    assert s[0..] == s;
    if i < 0 {
      assert s[1..] == NatToString(n) + rest;
    } else {
      assert s == NatToString(n) + rest;
      assert IsDigit(s[0]);
    }
  }

  /** Printing an integer and reading it back with `parseInt` gives the integer. */
  lemma ParseIntOfIntToString(i: int)
    ensures ParseInt(IntToString(i)) == Some(i)
  {
    ParseIntOfPrefix(i, []);
    assert IntToString(i) + [] == IntToString(i);
  }

  /** Different integers print differently. */
  lemma IntToStringInjective(i: int, j: int)
    requires IntToString(i) == IntToString(j)
    ensures i == j
  {
    ParseIntOfIntToString(i);
    ParseIntOfIntToString(j);
  }
}

=== FILE: travel_card.dfy ===
/** js/travel-card.js: collecting the form into a card, validating it, staging it on
    submit, autosaving the form and restoring an autosaved snapshot. */
module TravelCard {
  import opened Wrappers
  import opened Text
  import opened Cards
  import opened Utils
  import opened Storage

  /** The form's inputs: text, select and number inputs as their `value` strings,
      checkboxes as their `checked` flags. */
  datatype Form = Form(
    travelerName: string, travelerID: string, spacecraft: string,
    destinationType: string, destination: string,
    departureDate: string, departureTime: string,
    seatClass: string, seatPreference: string, extraLegroom: bool,
    mealPreference: string, beveragePreference: string,
    carryOn: string, checkedBags: string,
    wheelchair: bool, oxygenSupport: bool, gravityAssist: bool,
    entertainment: string, notes: string)

  /** A form with every input empty and every checkbox clear. */
  const BlankForm := Form("", "", "", "", "", "", "", "", "", false, "", "", "", "", false, false, false, "", "")

  // ---------------------------------------------------------------------------
  // Collecting

  /** The properties of a collected card. */
  const CollectedKeys: set<Key> := {
    TravelerName, TravelerID, Spacecraft, DestinationType, Destination,
    DepartureDate, DepartureTime, SeatClass, SeatPreference, ExtraLegroom,
    MealPreference, BeveragePreference, CarryOn, CheckedBags,
    Wheelchair, OxygenSupport, GravityAssist, Entertainment, Notes,
    CardID, Timestamp}

  /** The values `collectFormData` computes rather than copies. */
  datatype Computed = Computed(
    travelerName: string, travelerID: string, carryOn: int, checkedBags: int,
    notes: string, cardID: string, timestamp: int)

  /** `input.value.trim() || sentinel`. */
  function TrimOr(s: string, sentinel: string): (r: string)
    ensures AllSpace(s) ==> r == sentinel
    ensures !AllSpace(s) ==> r == Trim(s) && r != ""
  {
    if Trim(s) == "" then sentinel else Trim(s)
  }

  /** `parseInt(input.value) || 0`: NaN (and 0) become 0. */
  function CountOrZero(s: string): (n: int)
    ensures ParseInt(s).None? ==> n == 0
    ensures ParseInt(s).Some? ==> n == ParseInt(s).value
    ensures AllSpace(s) ==> n == 0
  {
    match ParseInt(s)
    case None => 0
    case Some(k) => k
  }

  /** The trimming, parsing, id generation and clock reading of `collectFormData`. */
  function Compute(f: Form, env: Env): Computed {
    Computed(Trim(f.travelerName), TrimOr(f.travelerID, "N/A"), CountOrZero(f.carryOn),
             CountOrZero(f.checkedBags), TrimOr(f.notes, "None"),
             GenerateCardID(env.idClock, env.draw), env.now)
  }

  /** The object literal of `collectFormData`, given what it computes. */
  function Assemble(f: Form, v: Computed): Card {
    Card(map[
      TravelerName := Str(v.travelerName), TravelerID := Str(v.travelerID),
      Spacecraft := Str(f.spacecraft),
      DestinationType := Str(f.destinationType), Destination := Str(f.destination),
      DepartureDate := Str(f.departureDate), DepartureTime := Str(f.departureTime),
      SeatClass := Str(f.seatClass), SeatPreference := Str(f.seatPreference),
      ExtraLegroom := Bool(f.extraLegroom),
      MealPreference := Str(f.mealPreference), BeveragePreference := Str(f.beveragePreference),
      CarryOn := Num(v.carryOn), CheckedBags := Num(v.checkedBags),
      Wheelchair := Bool(f.wheelchair), OxygenSupport := Bool(f.oxygenSupport),
      GravityAssist := Bool(f.gravityAssist),
      Entertainment := Str(f.entertainment),
      Notes := Str(v.notes),
      CardID := Str(v.cardID), Timestamp := Num(v.timestamp)])
  }

  /** `collectFormData`: the card built from the form, with a fresh id and the
      clock reading as its timestamp. */
  function CollectFormData(f: Form, env: Env): (c: Card)
    ensures TextOf(c, TravelerName) == Some(Trim(f.travelerName))
    ensures IdOf(c) == Some(Str(GenerateCardID(env.idClock, env.draw)))
    ensures c.Get(Timestamp) == Some(Num(env.now))
  {
    AssembleMetadata(f, Compute(f, env));
    Assemble(f, Compute(f, env))
  }

  lemma AssembleMetadata(f: Form, v: Computed)
    ensures Assemble(f, v).Get(TravelerName) == Some(Str(v.travelerName))
    ensures Assemble(f, v).Get(CardID) == Some(Str(v.cardID))
    ensures Assemble(f, v).Get(Timestamp) == Some(Num(v.timestamp))
  {
  }

  /** A collected card has exactly the properties of the object literal. */
  lemma CollectedProperties(f: Form, env: Env)
    ensures CollectFormData(f, env).fields.Keys == CollectedKeys
  {
    AssembleKeys(f, Compute(f, env));
  }

  lemma AssembleKeys(f: Form, v: Computed)
    ensures Assemble(f, v).fields.Keys == CollectedKeys
  {
  }

  /** A blank traveler id or blank notes become the sentinels 'N/A' and 'None';
      other values are trimmed. */
  lemma CollectSentinels(f: Form, env: Env)
    ensures CollectFormData(f, env).Get(TravelerID) == Some(Str(if AllSpace(f.travelerID) then "N/A" else Trim(f.travelerID)))
    ensures CollectFormData(f, env).Get(Notes) == Some(Str(if AllSpace(f.notes) then "None" else Trim(f.notes)))
  {
    AssembleTexts(f, Compute(f, env));
  }

  lemma AssembleTexts(f: Form, v: Computed)
    ensures Assemble(f, v).Get(TravelerID) == Some(Str(v.travelerID))
    ensures Assemble(f, v).Get(Notes) == Some(Str(v.notes))
  {
  }

  /** The bag counts are the parsed numerals, and 0 for a blank or unparseable input. */
  lemma CollectParsesCounts(f: Form, env: Env)
    ensures ParseInt(f.carryOn).None? ==> CollectFormData(f, env).Get(CarryOn) == Some(Num(0))
    ensures ParseInt(f.carryOn).Some? ==> CollectFormData(f, env).Get(CarryOn) == Some(Num(ParseInt(f.carryOn).value))
    ensures ParseInt(f.checkedBags).None? ==> CollectFormData(f, env).Get(CheckedBags) == Some(Num(0))
    ensures ParseInt(f.checkedBags).Some? ==> CollectFormData(f, env).Get(CheckedBags) == Some(Num(ParseInt(f.checkedBags).value))
  {
    AssembleCounts(f, Compute(f, env));
  }

  lemma AssembleCounts(f: Form, v: Computed)
    ensures Assemble(f, v).Get(CarryOn) == Some(Num(v.carryOn))
    ensures Assemble(f, v).Get(CheckedBags) == Some(Num(v.checkedBags))
  {
  }

  /** The selects, the other text inputs and the checkboxes are copied without change. */
  lemma CollectCopiesControls(f: Form, env: Env)
    ensures HoldsTrip(CollectFormData(f, env), f) && HoldsFlight(CollectFormData(f, env), f)
    ensures HoldsPreferences(CollectFormData(f, env), f) && HoldsFlags(CollectFormData(f, env), f)
  {
    var v := Compute(f, env);
    AssembleHoldsTrip(f, v);
    AssembleHoldsFlight(f, v);
    AssembleHoldsPreferences(f, v);
    AssembleHoldsFlags(f, v);
  }

  // ---------------------------------------------------------------------------
  // Validating

  /** The required fields of `validateTravelCardForm` and their labels, in the
      order they are checked. */
  const Required: seq<(Key, string)> := [
    (TravelerName, "Traveler Name"), (Spacecraft, "Spacecraft"),
    (DestinationType, "Destination Type"), (Destination, "Destination"),
    (DepartureDate, "Departure Date"), (DepartureTime, "Departure Time"),
    (SeatClass, "Seat Class"), (MealPreference, "Meal Preference")
  ]

  const PastMessage := "Departure date and time must be in the future"
  const ShortNameMessage := "Traveler name must be at least 2 characters"

  /** Every required field is truthy. */
  predicate AllRequired(c: Card) {
    forall j :: 0 <= j < |Required| ==> Truthy(c.Get(Required[j].0))
  }

  /** Required field `k` is the first falsy one. */
  predicate FirstMissing(c: Card, k: int) {
    && 0 <= k < |Required|
    && !Truthy(c.Get(Required[k].0))
    && forall j :: 0 <= j < k ==> Truthy(c.Get(Required[j].0))
  }

  /** `departureDateTime < now`. `departure` is the instant `new Date(date + 'T' + time)`
      denotes, None when it is an invalid date (NaN), which compares false. */
  predicate InPast(departure: Option<int>, now: int) {
    departure.Some? && departure.value < now
  }

  /** `formData.travelerName.length < 2`; a truthy non-string has no length and the
      comparison with `undefined` is false. */
  predicate ShortName(c: Card) {
    match c.Get(TravelerName)
    case Some(Str(s)) => |s| < 2
    case _ => false
  }

  function MissingFrom(c: Card, i: nat): (r: Option<nat>)
    requires i <= |Required|
    requires forall j :: 0 <= j < i ==> Truthy(c.Get(Required[j].0))
    ensures r.Some? ==> FirstMissing(c, r.value)
    ensures r.None? <==> AllRequired(c)
    decreases |Required| - i
  {
    if i == |Required| then None
    else if !Truthy(c.Get(Required[i].0)) then Some(i)
    else MissingFrom(c, i + 1)
  }

  /** `validateTravelCardForm`: the first falsy required field, else a departure in
      the past, else a name shorter than two characters; valid only when none of
      the three rules fails. */
  function ValidateTravelCardForm(c: Card, departure: Option<int>, now: int): (r: Verdict)
    ensures r == Valid <==> AllRequired(c) && !InPast(departure, now) && !ShortName(c)
    ensures forall k :: FirstMissing(c, k) ==> r == Invalid("Please fill in: " + Required[k].1)
    ensures AllRequired(c) && InPast(departure, now) ==> r == Invalid(PastMessage)
    ensures AllRequired(c) && !InPast(departure, now) && ShortName(c) ==> r == Invalid(ShortNameMessage)
  {
    match MissingFrom(c, 0)
    case Some(k) => Invalid("Please fill in: " + Required[k].1)
    case None =>
      if InPast(departure, now) then Invalid(PastMessage)
      else if ShortName(c) then Invalid(ShortNameMessage)
      else Valid
  }

  /** The boundaries of the rules: with every required field filled, a departure at
      the current instant or later and a two-character name pass; a one-character
      name or an earlier departure is rejected with the matching message. */
  lemma ValidationBoundaries(c: Card, now: int)
    requires AllRequired(c)
    ensures |TextOf(c, TravelerName).GetOr("ab")| == 2 ==>
              ValidateTravelCardForm(c, Some(now), now) == Valid
              && ValidateTravelCardForm(c, Some(now + 1000), now) == Valid
              && ValidateTravelCardForm(c, None, now) == Valid
    ensures |TextOf(c, TravelerName).GetOr("ab")| == 1 ==>
              ValidateTravelCardForm(c, Some(now + 1000), now) == Invalid(ShortNameMessage)
    ensures ValidateTravelCardForm(c, Some(now - 1), now) == Invalid(PastMessage)
  {
  }

  /** A card the validator accepts always has a departure to format. */
  lemma ValidCardHasDeparture(c: Card, departure: Option<int>, now: int, localized: string)
    requires ValidateTravelCardForm(c, departure, now) == Valid
    ensures FormatDateTime(c.Get(DepartureDate), c.Get(DepartureTime), localized) == localized
  {
    assert Required[4].0 == DepartureDate && Required[5].0 == DepartureTime;
  }

  // ---------------------------------------------------------------------------
  // Submitting and autosaving

  /** The submit handler: the collected card is staged only when it validates; on
      failure the medium is untouched. */
  function Submit(m: Medium, f: Form, env: Env, departure: Option<int>, now: int): (r: (Medium, Verdict))
    ensures r.1 == ValidateTravelCardForm(CollectFormData(f, env), departure, now)
    ensures r.1 == Valid ==> GetCurrentCard(r.0) == Some(CollectFormData(f, env))
    ensures r.1 == Valid ==> SameDurable(m, r.0) && r.0.autosave == m.autosave
    ensures r.1 != Valid ==> r.0 == m
  {
    var card := CollectFormData(f, env);
    var verdict := ValidateTravelCardForm(card, departure, now);
    if verdict == Valid then (SetCurrentCard(m, card), verdict) else (m, verdict)
  }

  /** The autosave timer's callback: the collected form is written to the autosave
      key exactly when the trimmed traveler name is non-empty. */
  function AutoSave(m: Medium, f: Form, env: Env): (r: Medium)
    ensures !AllSpace(f.travelerName) ==> r == m.(autosave := Parsed(CollectFormData(f, env)))
    ensures AllSpace(f.travelerName) ==> r == m
  {
    var card := CollectFormData(f, env);
    if Truthy(card.Get(TravelerName)) then m.(autosave := Parsed(card)) else m
  }

  // ---------------------------------------------------------------------------
  // Restoring

  /** What assigning a value to an input's `value` stores. */
  function InputText(v: Value): string {
    match v
    case Str(s) => s
    case Num(n) => IntToString(n)
    case Bool(b) => if b then "true" else "false"
    case Null => ""
  }

  /** `if (data.x) input.value = data.x`. */
  function RestoreIfTruthy(current: string, v: Option<Value>): string {
    if Truthy(v) then InputText(v.value) else current
  }

  /** `if (data.x && data.x !== sentinel) input.value = data.x`. */
  function RestoreUnlessSentinel(current: string, v: Option<Value>, sentinel: string): string {
    if Truthy(v) && v != Some(Str(sentinel)) then InputText(v.value) else current
  }

  /** `if (data.x !== undefined) input.value = data.x`. */
  function RestoreIfDefined(current: string, v: Option<Value>): string {
    if v.Some? then InputText(v.value) else current
  }

  /** `if (data.x) checkbox.checked = data.x`: set, never cleared. */
  function RestoreFlag(current: bool, v: Option<Value>): bool {
    if Truthy(v) then true else current
  }

  /** `restoreFormData`: writes the snapshot's values back into the inputs. The
      sentinels 'N/A' (traveler id) and 'None' (notes) are not written back. Setting
      the destination type repopulates the destination select, which then takes the
      snapshot's destination or stays on its empty option. */
  function RestoreFormData(f: Form, data: Card): (r: Form)
    ensures data.Get(TravelerID) == Some(Str("N/A")) ==> r.travelerID == f.travelerID
    ensures data.Get(Notes) == Some(Str("None")) ==> r.notes == f.notes
  {
    var restoredType := Truthy(data.Get(DestinationType));
    f.(travelerName := RestoreIfTruthy(f.travelerName, data.Get(TravelerName)),
       travelerID := RestoreUnlessSentinel(f.travelerID, data.Get(TravelerID), "N/A"),
       spacecraft := RestoreIfTruthy(f.spacecraft, data.Get(Spacecraft)),
       destinationType := RestoreIfTruthy(f.destinationType, data.Get(DestinationType)),
       destination := if restoredType then RestoreIfTruthy("", data.Get(Destination)) else f.destination,
       departureDate := RestoreIfTruthy(f.departureDate, data.Get(DepartureDate)),
       departureTime := RestoreIfTruthy(f.departureTime, data.Get(DepartureTime)),
       seatClass := RestoreIfTruthy(f.seatClass, data.Get(SeatClass)),
       seatPreference := RestoreIfTruthy(f.seatPreference, data.Get(SeatPreference)),
       extraLegroom := RestoreFlag(f.extraLegroom, data.Get(ExtraLegroom)),
       mealPreference := RestoreIfTruthy(f.mealPreference, data.Get(MealPreference)),
       beveragePreference := RestoreIfTruthy(f.beveragePreference, data.Get(BeveragePreference)),
       carryOn := RestoreIfDefined(f.carryOn, data.Get(CarryOn)),
       checkedBags := RestoreIfDefined(f.checkedBags, data.Get(CheckedBags)),
       wheelchair := RestoreFlag(f.wheelchair, data.Get(Wheelchair)),
       oxygenSupport := RestoreFlag(f.oxygenSupport, data.Get(OxygenSupport)),
       gravityAssist := RestoreFlag(f.gravityAssist, data.Get(GravityAssist)),
       entertainment := RestoreIfTruthy(f.entertainment, data.Get(Entertainment)),
       notes := RestoreUnlessSentinel(f.notes, data.Get(Notes), "None"))
  }

  /** A number input holds the decimal numeral of an integer. */
  predicate CanonicalCount(s: string) {
    ParseInt(s).Some? && s == IntToString(ParseInt(s).value)
  }

  /** A form whose text is already trimmed, whose counts are plain numerals, whose
      optional texts are not the sentinels, and whose destination is only set with a
      destination type: exactly the forms an autosave snapshot restores faithfully. */
  predicate RestorableForm(f: Form) {
    && Trim(f.travelerName) == f.travelerName
    && Trim(f.travelerID) == f.travelerID && f.travelerID != "N/A"
    && Trim(f.notes) == f.notes && f.notes != "None"
    && CanonicalCount(f.carryOn) && CanonicalCount(f.checkedBags)
    && (f.destinationType == "" ==> f.destination == "")
  }

  /** The card holds the traveler's own texts the way collecting writes them: the
      name as it is, a blank id or blank notes as the sentinels. */
  predicate HoldsTraveler(c: Card, f: Form) {
    && c.Get(TravelerName) == Some(Str(f.travelerName))
    && c.Get(TravelerID) == Some(Str(if f.travelerID == "" then "N/A" else f.travelerID))
    && c.Get(Notes) == Some(Str(if f.notes == "" then "None" else f.notes))
  }

  /** The card holds the spacecraft and destination selects. */
  predicate HoldsTrip(c: Card, f: Form) {
    && c.Get(Spacecraft) == Some(Str(f.spacecraft))
    && c.Get(DestinationType) == Some(Str(f.destinationType))
    && c.Get(Destination) == Some(Str(f.destination))
  }

  /** The card holds the departure and seating inputs. */
  predicate HoldsFlight(c: Card, f: Form) {
    && c.Get(DepartureDate) == Some(Str(f.departureDate))
    && c.Get(DepartureTime) == Some(Str(f.departureTime))
    && c.Get(SeatClass) == Some(Str(f.seatClass))
    && c.Get(SeatPreference) == Some(Str(f.seatPreference))
  }

  /** The card holds the meal, beverage and entertainment selects. */
  predicate HoldsPreferences(c: Card, f: Form) {
    && c.Get(MealPreference) == Some(Str(f.mealPreference))
    && c.Get(BeveragePreference) == Some(Str(f.beveragePreference))
    && c.Get(Entertainment) == Some(Str(f.entertainment))
  }

  /** The card holds the four checkboxes. */
  predicate HoldsFlags(c: Card, f: Form) {
    && c.Get(ExtraLegroom) == Some(Bool(f.extraLegroom))
    && c.Get(Wheelchair) == Some(Bool(f.wheelchair))
    && c.Get(OxygenSupport) == Some(Bool(f.oxygenSupport))
    && c.Get(GravityAssist) == Some(Bool(f.gravityAssist))
  }

  /** Property `k` holds a number whose numeral is `s`. */
  predicate HoldsCount(c: Card, k: Key, s: string) {
    c.Get(k).Some? && c.Get(k).value.Num? && IntToString(c.Get(k).value.n) == s
  }

  /** The card is a snapshot of the form: every control's value is in it. */
  predicate Holds(c: Card, f: Form) {
    && HoldsTraveler(c, f) && HoldsTrip(c, f) && HoldsFlight(c, f)
    && HoldsPreferences(c, f) && HoldsFlags(c, f)
    && HoldsCount(c, CarryOn, f.carryOn) && HoldsCount(c, CheckedBags, f.checkedBags)
  }

  /** Restoring a snapshot of a form whose id and notes are not the sentinels and
      whose destination is only set with a destination type gives the form back,
      whatever other properties the snapshot carries. */
  lemma RestoreSnapshot(f: Form, c: Card)
    requires Holds(c, f)
    requires f.travelerID != "N/A" && f.notes != "None"
    requires f.destinationType == "" ==> f.destination == ""
    ensures RestoreFormData(BlankForm, c) == f
  {
  }

  /** The computed values of a restorable form are what its controls hold. */
  predicate Reflects(f: Form, v: Computed) {
    && v.travelerName == f.travelerName
    && v.travelerID == (if f.travelerID == "" then "N/A" else f.travelerID)
    && v.notes == (if f.notes == "" then "None" else f.notes)
    && IntToString(v.carryOn) == f.carryOn && IntToString(v.checkedBags) == f.checkedBags
  }

  /** A restorable form's computed values reflect its controls. */
  lemma ComputeReflects(f: Form, env: Env)
    requires RestorableForm(f)
    ensures Reflects(f, Compute(f, env))
  {
    assert f.travelerID == "" ==> AllSpace(f.travelerID);
    assert f.notes == "" ==> AllSpace(f.notes);
    ParseIntOfIntToString(ParseInt(f.carryOn).value);
    ParseIntOfIntToString(ParseInt(f.checkedBags).value);
  }

  lemma AssembleHoldsTraveler(f: Form, v: Computed)
    requires Reflects(f, v)
    ensures HoldsTraveler(Assemble(f, v), f)
  {
  }

  lemma AssembleHoldsTrip(f: Form, v: Computed)
    ensures HoldsTrip(Assemble(f, v), f)
  {
  }

  lemma AssembleHoldsFlight(f: Form, v: Computed)
    ensures HoldsFlight(Assemble(f, v), f)
  {
  }

  lemma AssembleHoldsPreferences(f: Form, v: Computed)
    ensures HoldsPreferences(Assemble(f, v), f)
  {
  }

  lemma AssembleHoldsFlags(f: Form, v: Computed)
    ensures HoldsFlags(Assemble(f, v), f)
  {
  }

  /** A collected card is a snapshot of a restorable form. */
  lemma CollectHolds(f: Form, env: Env)
    requires RestorableForm(f)
    ensures Holds(CollectFormData(f, env), f)
  {
    var v := Compute(f, env);
    ComputeReflects(f, env);
    AssembleHoldsTraveler(f, v);
    AssembleCounts(f, v);
    CollectCopiesControls(f, env);
  }

  /** Restoring the autosave of a restorable form into a blank form gives the form back. */
  lemma RestoreAfterCollect(f: Form, env: Env)
    requires RestorableForm(f)
    ensures RestoreFormData(BlankForm, CollectFormData(f, env)) == f
  {
    CollectHolds(f, env);
    RestoreSnapshot(f, CollectFormData(f, env));
  }

  /** A blank traveler id or blank notes are stored as the sentinels, which restoring
      does not write back: the input keeps what it had. A literal 'N/A' or 'None'
      typed by the user is lost the same way. */
  lemma SentinelsNotRestored(g: Form, f: Form, env: Env)
    requires AllSpace(f.travelerID) || Trim(f.travelerID) == "N/A"
    requires AllSpace(f.notes) || Trim(f.notes) == "None"
    ensures RestoreFormData(g, CollectFormData(f, env)).travelerID == g.travelerID
    ensures RestoreFormData(g, CollectFormData(f, env)).notes == g.notes
  {
    CollectSentinels(f, env);
  }

  // ---------------------------------------------------------------------------
  // Page load and reset

  /** The page-load handler: with a snapshot that parses, the user is asked; yes
      restores it into the form, no removes the snapshot. A missing or unparseable
      snapshot leaves both alone. Restoring a truthy destination type dispatches a
      `change` event on its select, and the autosave listener on that select then
      collects the restored form and writes it as the new snapshot; `env` is the
      environment that callback runs in. */
  function RestoreOnLoad(m: Medium, f: Form, confirmed: bool, env: Env): (r: (Medium, Form))
    ensures !m.autosave.Parsed? ==> r == (m, f)
    ensures r.0.durable == m.durable && r.0.current == m.current
    ensures m.autosave.Parsed? && !confirmed ==> r == (m.(autosave := Missing), f)
    ensures m.autosave.Parsed? && confirmed ==> r.1 == RestoreFormData(f, m.autosave.value)
    ensures m.autosave.Parsed? && confirmed && Truthy(m.autosave.value.Get(DestinationType)) ==>
              r.0 == AutoSave(m, r.1, env)
    ensures m.autosave.Parsed? && confirmed && !Truthy(m.autosave.value.Get(DestinationType)) ==>
              r.0 == m
  {
    match m.autosave
    case Parsed(data) =>
      if confirmed then
        var g := RestoreFormData(f, data);
        if Truthy(data.Get(DestinationType)) then (AutoSave(m, g, env), g) else (m, g)
      else (m.(autosave := Missing), f)
    case _ => (m, f)
  }

  /** The form's reset handler: the snapshot is removed. */
  function ResetForm(m: Medium): (r: Medium)
    ensures r.autosave == Missing && SameDurable(m, r) && r.current == m.current
  {
    m.(autosave := Missing)
  }

  /** An autosave of a restorable form with a name, accepted on the next page load
      into the blank form, gives the form back; declined, it is gone. */
  lemma AutoSaveThenLoad(m: Medium, f: Form, env: Env, env2: Env)
    requires RestorableForm(f) && !AllSpace(f.travelerName)
    ensures RestoreOnLoad(AutoSave(m, f, env), BlankForm, true, env2).1 == f
    ensures RestoreOnLoad(AutoSave(m, f, env), BlankForm, false, env2).0.autosave == Missing
  {
    RestoreAfterCollect(f, env);
  }

  /** Accepting that snapshot when it has a destination type writes it again: the
      restored form is collected anew, with the new clock reading and a new id. */
  lemma AcceptedLoadAutoSavesAgain(m: Medium, f: Form, env: Env, env2: Env)
    requires RestorableForm(f) && !AllSpace(f.travelerName) && f.destinationType != ""
    ensures RestoreOnLoad(AutoSave(m, f, env), BlankForm, true, env2).0.autosave
            == Parsed(CollectFormData(f, env2))
  {
    var card := CollectFormData(f, env);
    var m1 := AutoSave(m, f, env);
    assert m1.autosave == Parsed(card);
    assert Truthy(card.Get(DestinationType)) by {
      AssembleHoldsTrip(f, Compute(f, env));
    }
    RestoreAfterCollect(f, env);
    var r := RestoreOnLoad(m1, BlankForm, true, env2);
    assert r.1 == f;
    assert r.0 == AutoSave(m1, f, env2);
  }

  /** After a reset the next page load restores nothing. */
  lemma ResetThenLoad(m: Medium, f: Form, confirmed: bool, env: Env)
    ensures RestoreOnLoad(ResetForm(m), f, confirmed, env) == (ResetForm(m), f)
  {
  }
}

=== FILE: utils.dfy ===
/** The shared helpers of js/main.js: the destination table, card id generation,
    departure formatting, the distance lookup and the generic form validator. */
module Utils {
  import opened Wrappers
  import opened Text
  import opened Cards

  /** `Math.floor(Math.random() * 10000)`: the random part of a card id. */
  type Draw = r: int | 0 <= r < 10000

  /** Outcome of a form validator: `{ valid: true }` or `{ valid: false, message }`. */
  datatype Verdict = Valid | Invalid(message: string)

  // ---------------------------------------------------------------------------
  // Destination table

  /** `destinationData`: the destinations offered for each destination type. */
  const DestinationData: map<string, seq<string>> := map[
    "solar" := [
      "Mars - The Red Planet", "Venus - Morning Star", "Mercury - Swift Messenger",
      "Jupiter - Gas Giant", "Saturn - Ringed Wonder", "Uranus - Ice Giant",
      "Neptune - Deep Blue", "Pluto - Distant Dwarf"],
    "exoplanet" := [
      "Proxima Centauri b - Nearest Neighbor", "TRAPPIST-1e - Habitable Zone",
      "Kepler-452b - Earth's Cousin", "HD 189733 b - Blue Marvel",
      "Gliese 667 Cc - Super Earth", "55 Cancri e - Diamond World",
      "Kepler-16b - Tatooine-like", "WASP-12b - Hottest Planet"],
    "galaxy" := [
      "Andromeda Galaxy - M31", "Triangulum Galaxy - M33", "Whirlpool Galaxy - M51",
      "Sombrero Galaxy - M104", "Pinwheel Galaxy - M101", "Centaurus A - NGC 5128",
      "Black Eye Galaxy - M64", "Sculptor Galaxy - NGC 253"],
    "fictional" := [
      "Arrakis - Desert Planet of Dune", "Pandora - Forest Moon", "Tatooine - Twin Suns",
      "Coruscant - City Planet", "Dagobah - Swamp World", "Hoth - Ice Planet",
      "Bespin - Cloud City", "Naboo - Pastoral Paradise", "Krypton - Ancient Homeworld",
      "Gallifrey - Time Lord Home", "LV-426 - Acheron", "Solaris - Living Ocean"]
  ]

  /** The destination-type change handler: the options the destination select is
      filled with, or None when the select is disabled. */
  function DestinationOptions(destinationType: string): (r: Option<seq<string>>)
    ensures r.Some? <==> destinationType in {"solar", "exoplanet", "galaxy", "fictional"}
    ensures r.Some? ==> |r.value| > 0 && r.value == DestinationData[destinationType]
  {
    if destinationType != "" && destinationType in DestinationData then
      Some(DestinationData[destinationType])
    else None
  }

  // ---------------------------------------------------------------------------
  // Card ids

  /** `generateCardID`: "CARD-", the clock reading, "-", the random draw. The
      draw is what follows the id's last '-'. */
  function GenerateCardID(clock: int, draw: Draw): (id: string)
    ensures "CARD-" <= id
    ensures 0 <= LastDash(id) && id[LastDash(id) + 1..] == NatToString(draw)
  {
    var p := "CARD-" + IntToString(clock);
    NatToStringDigits(draw);
    LastDashBeforeDigits(p, NatToString(draw));
    p + "-" + NatToString(draw)
  }

  /** An id splits at its last '-' into the clock reading and the draw: between
      "CARD-" and that dash lies the clock's numeral, and after it one to four
      digits denoting the draw. */
  lemma CardIdShape(clock: int, draw: Draw)
    ensures var id := GenerateCardID(clock, draw);
            var k := LastDash(id);
            k == 5 + |IntToString(clock)| && id[5..k] == IntToString(clock)
    ensures var id := GenerateCardID(clock, draw);
            var q := id[LastDash(id) + 1..];
            AllDigits(q) && 1 <= |q| <= 4 && DigitsValue(q) == draw
  {
    var p, q := "CARD-" + IntToString(clock), NatToString(draw);
    var id := p + "-" + q;
    assert id == GenerateCardID(clock, draw);
    NatToStringValue(draw);
    NumeralLength(draw, 4);
    LastDashBeforeDigits(p, q);
    assert id[5..|p|] == IntToString(clock);
  }

  /** Reading an id after "CARD-" with `parseInt` gives the clock reading back:
      the read stops at the dash before the draw. */
  lemma CardIdClock(clock: int, draw: Draw)
    ensures ParseInt(GenerateCardID(clock, draw)[5..]) == Some(clock)
  {
    var rest := "-" + NatToString(draw);
    var id := GenerateCardID(clock, draw);
    assert id == "CARD-" + (IntToString(clock) + rest);
    AfterPrefix("CARD-", IntToString(clock) + rest);
    ParseIntOfPrefix(clock, rest);
  }

  lemma AfterPrefix(a: string, b: string)
    ensures (a + b)[|a|..] == b
  {
  }

  function Pow10(k: nat): nat {
    if k == 0 then 1 else 10 * Pow10(k - 1)
  }

  lemma {:induction false} NumeralLength(n: nat, k: nat)
    requires 1 <= k && n < Pow10(k)
    ensures |NatToString(n)| <= k
  {
    if n >= 10 {
      assert k > 1;
      NumeralLength(n / 10, k - 1);
    }
  }

  /** Two ids are equal only when both the clock reading and the draw are. */
  lemma CardIdInjective(clock1: int, draw1: Draw, clock2: int, draw2: Draw)
    ensures GenerateCardID(clock1, draw1) == GenerateCardID(clock2, draw2)
            <==> clock1 == clock2 && draw1 == draw2
  {
    if GenerateCardID(clock1, draw1) == GenerateCardID(clock2, draw2) {
      CardIdShape(clock1, draw1);
      CardIdShape(clock2, draw2);
      IntToStringInjective(clock1, clock2);
    }
  }

  /** Position of the last '-' in `s`, or -1 when there is none. */
  function LastDash(s: string): (k: int)
    ensures -1 <= k < |s|
  {
    if s == [] then -1
    else if s[|s| - 1] == '-' then |s| - 1
    else LastDash(s[..|s| - 1])
  }

  /** In "<p>-<digits>" the last '-' is the one after `p`, so an id splits back
      into its clock part and its draw part in exactly one way. */
  lemma {:induction false} LastDashBeforeDigits(p: string, q: string)
    requires AllDigits(q)
    ensures LastDash(p + "-" + q) == |p|
  {
    var s := p + "-" + q;
    if q != [] {
      var q' := q[..|q| - 1];
      assert s[..|s| - 1] == p + "-" + q';
      assert s[|s| - 1] == q[|q| - 1];
      LastDashBeforeDigits(p, q');
    }
  }

  // ---------------------------------------------------------------------------
  // Departure formatting

  /** `formatDateTime`: '-' when the date or the time is missing; otherwise the
      `en-US` rendering, which the locale machinery produces (`localized`). */
  function FormatDateTime(date: Option<Value>, time: Option<Value>, localized: string): (r: string)
    ensures !Truthy(date) || !Truthy(time) ==> r == "-"
    ensures Truthy(date) && Truthy(time) ==> r == localized
  {
    if !Truthy(date) || !Truthy(time) then "-" else localized
  }

  // ---------------------------------------------------------------------------
  // Distance lookup

  /** The `distances` object of `calculateDistance`, in its property order. */
  const DistanceTable: seq<(string, string)> := [
    ("Mars", "225 million km"), ("Venus", "261 million km"), ("Mercury", "77 million km"),
    ("Jupiter", "778 million km"), ("Saturn", "1.4 billion km"), ("Uranus", "2.9 billion km"),
    ("Neptune", "4.5 billion km"), ("Pluto", "5.9 billion km"), ("Proxima", "4.24 light years"),
    ("TRAPPIST", "39 light years"), ("Kepler", "1,400 light years"),
    ("Andromeda", "2.537 million light years"), ("Triangulum", "2.73 million light years"),
    ("Whirlpool", "23 million light years")
  ]

  const UnknownDistance := "Unknown Distance"

  /** Entry `i` of the table is the first whose key occurs in `destination`. */
  predicate FirstHit(destination: string, i: int) {
    && 0 <= i < |DistanceTable|
    && Contains(destination, DistanceTable[i].0)
    && forall j :: 0 <= j < i ==> !Contains(destination, DistanceTable[j].0)
  }

  function DistanceFrom(destination: string, i: nat): (r: string)
    requires i <= |DistanceTable|
    requires forall j :: 0 <= j < i ==> !Contains(destination, DistanceTable[j].0)
    ensures r == UnknownDistance <==> forall j :: i <= j < |DistanceTable| ==> !Contains(destination, DistanceTable[j].0)
    ensures r != UnknownDistance ==> exists j :: FirstHit(destination, j) && r == DistanceTable[j].1
    decreases |DistanceTable| - i
  {
    if i == |DistanceTable| then UnknownDistance
    else if Contains(destination, DistanceTable[i].0) then
      assert FirstHit(destination, i);
      DistanceTable[i].1
    else DistanceFrom(destination, i + 1)
  }

  /** `calculateDistance`: the distance of the first table key, in table order, that
      occurs in the destination; "Unknown Distance" when none does. */
  function CalculateDistance(destination: string): (r: string)
    ensures r == UnknownDistance <==> forall j :: 0 <= j < |DistanceTable| ==> !Contains(destination, DistanceTable[j].0)
    ensures r != UnknownDistance ==> exists j :: FirstHit(destination, j) && r == DistanceTable[j].1
  {
    DistanceFrom(destination, 0)
  }

  /** The entry of the first key that occurs decides the distance, whatever later
      keys also occur: a destination such as "Kepler-16b - Tatooine-like" gets the
      "Kepler" entry as soon as no earlier key occurs in it. */
  lemma DistanceOfFirstHit(destination: string, i: int)
    requires FirstHit(destination, i)
    ensures CalculateDistance(destination) == DistanceTable[i].1
  {
    var r := CalculateDistance(destination);
    assert r != UnknownDistance;
    var j :| FirstHit(destination, j) && r == DistanceTable[j].1;
    assert j == i;
  }

  // ---------------------------------------------------------------------------
  // Generic form validator

  /** The fields `validateForm` requires, in the order it checks them. */
  const FormFields: seq<Key> :=
    [TravelerName, Spacecraft, Destination, DepartureDate, DepartureTime, SeatClass, MealPreference]

  /** `field.replace(/([A-Z])/g, ' $1')`: a space before every ASCII capital. */
  function SpaceBeforeCaps(s: string): string {
    if s == [] then []
    else (if 'A' <= s[0] <= 'Z' then [' ', s[0]] else [s[0]]) + SpaceBeforeCaps(s[1..])
  }

  /** The label `validateForm` shows for a field name. */
  function Label(field: Key): string {
    Trim(SpaceBeforeCaps(Name(field)))
  }

  predicate NoCaps(s: string) {
    forall k :: 0 <= k < |s| ==> !('A' <= s[k] <= 'Z')
  }

  /** A two-word camel-case name such as `travelerName` or `departureDate` gets its
      words separated by one space, and nothing else changes. */
  lemma TwoWordLabel(a: string, u: char, b: string)
    requires a != [] && !IsSpace(a[0]) && NoCaps(a)
    requires 'A' <= u <= 'Z' && NoCaps(b) && (b == [] || !IsSpace(b[|b| - 1]))
    ensures Trim(SpaceBeforeCaps(a + [u] + b)) == a + [' ', u] + b
  {
    TwoWordSpacing(a, u, b);
    var r := a + [' ', u] + b;
    assert r[0] == a[0];
    assert r[|r| - 1] == if b == [] then u else b[|b| - 1];
    TrimUnpadded(r);
  }

  /** `validateForm` reports a blank traveler name as "Please fill in: traveler Name". */
  lemma TravelerNameLabel()
    ensures Label(TravelerName) == "traveler Name"
  {
    var a, b := "traveler", "ame";
    assert Name(TravelerName) == a + ['N'] + b;
    TwoWordLabel(a, 'N', b);
    assert a + [' ', 'N'] + b == "traveler Name";
  }

  lemma TwoWordSpacing(a: string, u: char, b: string)
    requires NoCaps(a) && 'A' <= u <= 'Z' && NoCaps(b)
    ensures SpaceBeforeCaps(a + [u] + b) == a + [' ', u] + b
  {
    SpaceBeforeCapsAppend(a + [u], b);
    SpaceBeforeCapsAppend(a, [u]);
    NoCapsUnchanged(a);
    NoCapsUnchanged(b);
    assert SpaceBeforeCaps([u]) == [' ', u] + SpaceBeforeCaps([]);
  }

  /** The spacing is applied character by character. */
  lemma {:induction false} SpaceBeforeCapsAppend(a: string, b: string)
    ensures SpaceBeforeCaps(a + b) == SpaceBeforeCaps(a) + SpaceBeforeCaps(b)
  {
    if a == [] {
      assert a + b == b;
    } else {
      var ab := a + b;
      assert ab[0] == a[0] && ab[1..] == a[1..] + b;
      SpaceBeforeCapsAppend(a[1..], b);
      var head := if 'A' <= a[0] <= 'Z' then [' ', a[0]] else [a[0]];
      assert SpaceBeforeCaps(ab) == head + SpaceBeforeCaps(a[1..] + b);
      assert SpaceBeforeCaps(a) == head + SpaceBeforeCaps(a[1..]);
    }
  }

  /** A string without capitals is left as it is. */
  lemma {:induction false} NoCapsUnchanged(s: string)
    requires NoCaps(s)
    ensures SpaceBeforeCaps(s) == s
  {
    if s != [] {
      NoCapsUnchanged(s[1..]);
    }
  }

  /** Trimming a string that starts and ends with non-whitespace changes nothing. */
  lemma TrimUnpadded(s: string)
    requires s != [] && !IsSpace(s[0]) && !IsSpace(s[|s| - 1])
    ensures Trim(s) == s
  {
    assert LeadCount(s) == 0;
    assert s[0..] == s;
    assert TrailCount(s) == 0;
  }

  /** The field holds a string that is not blank after trimming. */
  predicate Filled(c: Card, field: Key) {
    TextOf(c, field).Some? && !AllSpace(TextOf(c, field).value)
  }

  /** The field is absent or holds a string, so `trim` can be called on it when truthy. */
  predicate StringOrAbsent(c: Card, field: Key) {
    c.Get(field).None? || c.Get(field).value.Str?
  }

  /** `!formData[field] || formData[field].trim() === ''` for one field: Some(true) when
      the field counts as missing; None when `trim` is called on a truthy non-string
      and throws. */
  function IsBlank(c: Card, field: Key): (r: Option<bool>)
    ensures r == Some(false) <==> Filled(c, field)
  {
    if !Truthy(c.Get(field)) then Some(true)
    else match c.Get(field)
      case Some(Str(s)) => Some(Trim(s) == "")
      case _ => None
  }

  function ValidateFrom(c: Card, i: nat): (r: Option<Verdict>)
    requires i <= |FormFields|
    ensures r == Some(Valid) <==> forall j :: i <= j < |FormFields| ==> Filled(c, FormFields[j])
    ensures (forall j :: i <= j < |FormFields| ==> StringOrAbsent(c, FormFields[j])) ==> r.Some?
    ensures r.Some? && r.value.Invalid? ==>
      exists j :: i <= j < |FormFields| && IsBlank(c, FormFields[j]) == Some(true)
        && r.value.message == "Please fill in: " + Label(FormFields[j])
        && forall k :: i <= k < j ==> Filled(c, FormFields[k])
    decreases |FormFields| - i
  {
    if i == |FormFields| then Some(Valid)
    else match IsBlank(c, FormFields[i])
      case None => None
      case Some(true) => Some(Invalid("Please fill in: " + Label(FormFields[i])))
      case Some(false) => ValidateFrom(c, i + 1)
  }

  /** `validateForm`: the first required field that is missing or blank after trimming
      is reported by its label; valid exactly when every required field is filled.
      None stands for the TypeError thrown when a checked field holds a truthy
      non-string. */
  function ValidateForm(c: Card): (r: Option<Verdict>)
    ensures r == Some(Valid) <==> forall j :: 0 <= j < |FormFields| ==> Filled(c, FormFields[j])
    ensures r.Some? && r.value.Invalid? ==>
      exists j :: 0 <= j < |FormFields| && IsBlank(c, FormFields[j]) == Some(true)
        && r.value.message == "Please fill in: " + Label(FormFields[j])
        && forall k :: 0 <= k < j ==> Filled(c, FormFields[k])
    ensures (forall j :: 0 <= j < |FormFields| ==> StringOrAbsent(c, FormFields[j])) ==> r.Some?
  {
    ValidateFrom(c, 0)
  }
}

=== FILE: wrappers.dfy ===
/** The Option datatype used for JavaScript's `null`/`undefined` results. */
module Wrappers {

  datatype Option<+T> = None | Some(value: T) {

    /** Returns the value held in Some, or `default` for None. */
    function GetOr(default: T): T {
      match this
      case Some(v) => v
      case None => default
    }
  }
}
